=== FILE: README.md ===
# Personal-finance scripts, modelled in Dafny

This project models the computational core of a set of small Python scripts about personal money:

- a personal-finance analyser. It reads dated movements, skips rows whose date or amount does not parse, and summarises the rest: period, spend per category, total, daily average, top category and largest movement. It then writes the per-category report lines, with amounts formatted as Chilean pesos (`$12.346`).
- an expense analyser. It computes the total, per-category totals, per-category averages and percentages of the total.
- a spending dashboard. It computes the total, the mean, per-category totals, the top three categories and the largest expense.
- a DJ income analyser. It computes gross income, net income and the average hourly rate.
- the helpers of the first exercises:
  - sum;
  - currency conversion;
  - guarded percentage;
  - a filename cleaner built from `strip`, `split`, `" ".join` and `title`;
  - savings.

Every file the scripts read arrives already tokenised, as a `Csv.CsvFile`. A file is either missing, or it is present with a header and rows. Each numeric or date field of a row comes as the result of its parse: `Some(value)`, or `None` where Python's parser raises. A Python dict is a `Ledger.Dict`: its keys in insertion order plus the key-to-value map.

The model mirrors the source's shapes:
- Each loop of the source is a method with loop invariants. Each such method is proved against a recursive specification function or a pointwise quantified `ensures`.
- Each pure expression (`sum`, `min`, `max`, `sorted`, slices, string methods) is a function.
- An exception the scripts raise on their inputs is an `Err` value of a `Base.Result`, except the currency conversion's division by zero, which is `None` of a `Base.Option`. `min` and `max` of an empty list are excluded by a `requires`, since every caller checks for an empty list first.

Modules:
- `Base`: `Option` and `Result`.
- `Csv`: the file shape, the read errors, and the convert-every-row loop.
- `Stats`: sum, min, max, first maximum, ratio and mean.
- `Ledger`: the dict, category grouping and its loops.
- `Sorting`: order by name; stable rank by descending value.
- `Money`: `formato_clp` and its inverse.
- `Text`: the Python string methods.
- One module per script: `FinanceSummary`, `ExpenseAnalysis`, `Dashboard`, `DjIncome`, `Basics`, `Practice`.

Behaviour worth noting:
- Only the finance analyser skips bad rows. The other three readers abort on the first value `int()` rejects. No reader offers a choice between skipping and aborting.
- The expense analyser's reader returns an empty list for a header that lacks a column; it does not raise a schema error.
- The expense analyser's functions accept an empty list: the total is 0 and the groupings are empty. The DJ metrics return `(0, 0, 0)` for no events. Only the finance summary and the dashboard metrics fail on an empty list.
- The percentage guard is `total > 0`, not `total == 0`, so a negative total also gives 0 for every category.

## Model

| member | source | states |
|---|---|---|
| Money.RoundHalfEven | 03_projects/P03_finanzas_personales/analizador_finanzas.py:72 | the `.0f` rounding: the result is within half a unit of the value, and an exact tie goes to the even neighbour |
| Money.RoundHalfEvenUnique | 03_projects/P03_finanzas_personales/analizador_finanzas.py:72 | any integer within half a unit that breaks ties to even is the rounded value, so the rounding is fully determined |
| Money.DigitsRoundTrip | 03_projects/P03_finanzas_personales/analizador_finanzas.py:72 | the decimal digits of a natural number read back as that number |
| Money.GroupThousandsShape | 03_projects/P03_finanzas_personales/analizador_finanzas.py:72 | the `,` grouping, rendered as `.`: a dot stands exactly where the dot and the characters after it number a multiple of four, never first, so the digits come in groups of three from the right |
| Money.GroupThousandsUndot | 03_projects/P03_finanzas_personales/analizador_finanzas.py:72 | removing the dots gives back the digit string |
| Money.FormatClpRoundTrip | 03_projects/P03_finanzas_personales/analizador_finanzas.py:70-72 | reading `$`, an optional `-` and the dot-grouped digits of `formato_clp(x)` gives back the value rounded to a whole number |
| Money.FormatClpExample | 03_projects/P03_finanzas_personales/analizador_finanzas.py:71 | 12345.6 is formatted as `$12.346` |
| FinanceSummary.Accept | 03_projects/P03_finanzas_personales/analizador_finanzas.py:105-124 | a row becomes a movement exactly when both its date and its amount parse; the date is tried first, so a row with both bad is skipped for its date; a kept movement carries the row's fields |
| FinanceSummary.ReadMovements | 03_projects/P03_finanzas_personales/analizador_finanzas.py:79-126 | a missing file is FileNotFound; a header that is absent or lacks any of fecha, categoria, monto, detalle is a schema error carrying the header found; otherwise the kept movements and the skipped rows |
| FinanceSummary.KeptInInputOrder | 03_projects/P03_finanzas_personales/analizador_finanzas.py:105-124 | the kept movements are the accepted rows at strictly increasing positions, i.e. a subsequence of the input; a row is kept exactly when it is accepted; kept plus skipped count every row |
| FinanceSummary.SkippedRows | 03_projects/P03_finanzas_personales/analizador_finanzas.py:106-116 | every skipped entry names a rejected row and the field that failed, in increasing row order, and every rejected row is reported with its reason |
| FinanceSummary.SkippedAreRejected | 03_projects/P03_finanzas_personales/analizador_finanzas.py:106-116 | each skip record points at a row that was rejected for the reason recorded, in increasing row order |
| FinanceSummary.RejectedAreSkipped | 03_projects/P03_finanzas_personales/analizador_finanzas.py:106-116 | each rejected row appears among the skip records with its reason |
| FinanceSummary.PeriodOfDates | 03_projects/P03_finanzas_personales/analizador_finanzas.py:135-138 | the earliest and latest dates are dates of movements and bound every movement's date |
| FinanceSummary.CategoriesOfMovements | 03_projects/P03_finanzas_personales/analizador_finanzas.py:141-143 | the per-category dict has a key exactly for each category some movement carries |
| FinanceSummary.TopOfValues | 03_projects/P03_finanzas_personales/analizador_finanzas.py:150-152 | the category chosen has the greatest subtotal, and no category inserted before it reaches that subtotal |
| FinanceSummary.Summarize | 03_projects/P03_finanzas_personales/analizador_finanzas.py:129-168 | fails exactly on an empty list; otherwise the period covers every date, with days = last − first + 1 ≥ 1; the count is the list length; the dict is the category grouping of the movements; the total is the sum of all amounts; the daily average times the days is the total; the top category is the first with the greatest subtotal; the largest movement is the earliest with the greatest amount |
| FinanceSummary.PadRight | 03_projects/P03_finanzas_personales/analizador_finanzas.py:194 | `{texto:<n}`: the text followed by spaces up to width n, never truncated |
| FinanceSummary.PadLeft | 03_projects/P03_finanzas_personales/analizador_finanzas.py:194 | `{texto:>n}`: spaces up to width n followed by the text, never truncated |
| FinanceSummary.SortedCategoryNames | 03_projects/P03_finanzas_personales/analizador_finanzas.py:190-192 | sorting the keys of the per-category dict by name gives every key once, in strictly ascending order, and nothing else |
| FinanceSummary.AppendCategoryLines | 03_projects/P03_finanzas_personales/analizador_finanzas.py:191-194 | the append loop writes one line per name, in the names' order, each showing that name's subtotal |
| FinanceSummary.CategoryLines | 03_projects/P03_finanzas_personales/analizador_finanzas.py:191-194 | one report line per category, the categories in strictly ascending name order, each line showing that category's subtotal |
| Stats.MinOf | 03_projects/P03_finanzas_personales/analizador_finanzas.py:136 | `min` of a non-empty list: an element that is at most every element |
| Stats.MaxOf | 03_projects/P03_finanzas_personales/analizador_finanzas.py:137 | `max` of a non-empty list: an element that is at least every element |
| Stats.FirstMaxIndex | 03_projects/P03_finanzas_personales/analizador_finanzas.py:150-155 | the position `max(..., key=...)` picks: its value is at least every value, and every earlier value is strictly smaller |
| Stats.FirstMaxBy | 03_projects/P03_finanzas_personales/analizador_finanzas.py:155 | `max(xs, key=...)`, as the finance summary's largest movement and the dashboard's largest expense use it: the element at the first maximum of the keys has the greatest key, and no earlier element reaches it |
| Stats.Ratio | 03_projects/P03_finanzas_personales/analizador_finanzas.py:147 | true division by a positive count: the quotient times the count is the total |
| Stats.Mean | 02_data/analisis_gastos.py:121 | `sum(l) / len(l)` of a non-empty list: times the length it gives the sum |
| Stats.MeanBetweenExtremes | 02_data/analisis_gastos.py:121 | the mean of a non-empty list lies between its minimum and its maximum |
| Ledger.Dict.Items | 02_data/P02_dashboard.py:34 | `dict.items()`: one (key, value) pair per key, in insertion order |
| Ledger.GroupTotals | 02_data/analisis_gastos.py:84-91 | the grouping loop yields the dict of the category grouping: its keys are distinct and are exactly the occurring categories, each mapped to the sum of its amounts with at least one amount behind it, and its values sum to the total of all amounts |
| Ledger.GroupedSpec | 02_data/analisis_gastos.py:84-91 | the grouping dict is well formed; it has a key exactly for each occurring category, mapped to that category's subtotal; a category that does not occur has no amounts |
| Ledger.CategoriesSpec | 02_data/analisis_gastos.py:86-89 | the keys are distinct, are the domain of the mapping, and are exactly the occurring categories |
| Ledger.TotalsSpec | 02_data/P02_dashboard.py:29-31 | building with a default of 0 gives each category present the sum of its amounts, and a category absent has no amounts |
| Ledger.CategoriesInFirstAppearanceOrder | 02_data/analisis_gastos.py:84-91 | the keys of a prefix of the input are a prefix of the keys: a key keeps the place of its category's first appearance |
| Ledger.SumOverNonNegative | 02_data/analisis_gastos.py:152 | a sum of non-negative values over any keys is non-negative |
| Ledger.SumOverBounds | 02_data/analisis_gastos.py:152 | with non-negative values, each value summed lies between 0 and the sum |
| Ledger.TotalsNonNegative | 02_data/analisis_gastos.py:84-91 | non-negative amounts give non-negative category subtotals |
| Ledger.TotalsSumToTotal | 03_projects/P03_finanzas_personales/analizador_finanzas.py:146 | the subtotals, added over the keys, give the sum of all amounts |
| Ledger.AmountListsSpec | 02_data/analisis_gastos.py:110-116 | appending each amount to its category's list gives a dict with the same keys as the totals dict, each holding exactly that category's amounts in input order |
| Ledger.GroupAmounts | 02_data/analisis_gastos.py:110-116 | the `defaultdict(list)` loop: keys in first-appearance order, each mapped to the non-empty list of its category's amounts in input order |
| Sorting.BelowIrreflexive | 03_projects/P03_finanzas_personales/analizador_finanzas.py:191-193 | no name sorts before itself |
| Sorting.BelowTotal | 03_projects/P03_finanzas_personales/analizador_finanzas.py:191-193 | of two different names one sorts before the other |
| Sorting.BelowAsymmetric | 03_projects/P03_finanzas_personales/analizador_finanzas.py:191-193 | two names never sort before each other |
| Sorting.BelowTransitive | 03_projects/P03_finanzas_personales/analizador_finanzas.py:191-193 | the name order is transitive |
| Sorting.ByName | 03_projects/P03_finanzas_personales/analizador_finanzas.py:191-193 | sorting names is a permutation in ascending order, strictly ascending when the names are distinct |
| Sorting.RankDesc | 02_data/P02_dashboard.py:34 | `sorted(..., key=value, reverse=True)` is a permutation with non-increasing values |
| Sorting.RankDescStable | 02_data/P02_dashboard.py:34 | the sort is stable: for every value, the pairs carrying it keep their original relative order |
| Sorting.WithValuePrefix | 02_data/P02_dashboard.py:37 | the `[:3]` slice: the pairs with a given subtotal in a prefix are a prefix of those in the whole |
| Csv.ConvertAll | 02_data/analisis_gastos.py:50-53 | the convert-and-append loop succeeds exactly when every row converts, keeping every row in order; otherwise it fails at the first row that does not convert, naming the failing column |
| ExpenseAnalysis.ReadExpenses | 02_data/analisis_gastos.py:21-55 | a missing file raises; a file without a header raises TypeError; a header lacking categoria, monto or detalle gives the empty list; otherwise every row is kept in order with its amount as an integer, or the read aborts at the first amount that does not parse |
| ExpenseAnalysis.TotalSpent | 02_data/analisis_gastos.py:58-68 | 0 for no expenses; equal to the sum of the per-category subtotals |
| ExpenseAnalysis.AveragesByCategory | 02_data/analisis_gastos.py:94-124 | one key per category, in first-appearance order; each category has at least one amount, so nothing divides by zero, and its value is the mean of its amounts |
| ExpenseAnalysis.Percent | 02_data/analisis_gastos.py:152 | 0 when the total is not positive; otherwise the percentage times the total is the amount times 100 |
| ExpenseAnalysis.PercentWithinRange | 02_data/analisis_gastos.py:152 | an amount between 0 and a positive total is between 0 and 100 percent of it |
| ExpenseAnalysis.CategoryPercentInRange | 02_data/analisis_gastos.py:150-153 | with non-negative amounts, every category's printed percentage of the total lies in [0, 100], including the guarded case of a zero total |
| ExpenseAnalysis.PercentSumTimesTotal | 02_data/analisis_gastos.py:150-153 | the percentages over some keys, times the total, are 100 times the subtotals over those keys |
| ExpenseAnalysis.PercentsOfWholeTotal | 02_data/analisis_gastos.py:150-153 | when the subtotals add up to a positive total, the percentages add up to 100 |
| ExpenseAnalysis.PercentagesAddUp | 02_data/analisis_gastos.py:150-153 | with a positive total, the printed per-category percentages add up to exactly 100 |
| ExpenseAnalysis.ThreeExpensesExample | 02_data/analisis_gastos.py:84-91 | food 8500, transport 3000, food 2000: total 13500, keys food then transport, with subtotals 10500 and 3000; food is 10500/13500 of the spend |
| Dashboard.ReadExpenses | 02_data/P02_dashboard.py:7-17 | no column check; a missing file raises; every row is kept in order with its amount as an integer, or the read aborts at the first amount that does not parse |
| Dashboard.MeanAmount | 02_data/P02_dashboard.py:24-25 | 0 for no expenses; otherwise the mean times the count is the total |
| Dashboard.TotalIsSumOfAmounts | 02_data/P02_dashboard.py:24 | the total of the expenses is the sum of their amounts |
| Dashboard.MeanWithinAmounts | 02_data/P02_dashboard.py:25 | the mean lies between the smallest and the largest amount |
| Dashboard.TopThree | 02_data/P02_dashboard.py:34-37 | min(3, #categories) pairs, each a category with its subtotal and none taken more often than the dict holds it, in non-increasing order; no category left out has a subtotal above any included one; for every subtotal, the pairs carrying it are the first ones carrying it in the dict's key order, as the stable sort keeps ties |
| Dashboard.TopOfRanking | 02_data/P02_dashboard.py:37 | a prefix of the ranking holds items of the dict, no more often than the dict does, and nothing outside it beats anything inside it |
| Dashboard.TopOfRankingStable | 02_data/P02_dashboard.py:34-37 | slicing the stable ranking keeps, for every subtotal, an input-order prefix of the pairs carrying it |
| Dashboard.CalculateMetrics | 02_data/P02_dashboard.py:23-42 | fails exactly on an empty list (max of nothing); otherwise: the total of all amounts; the guarded mean; the category dict, whose values sum to the total; the top three by subtotal; the earliest expense with the greatest amount |
| DjIncome.ToEvent | 02_data/P03_ingresos_dj.py:33-37 | a row converts exactly when all five numeric fields parse; otherwise the error names the first field, in conversion order, that does not parse |
| DjIncome.ReadEvents | 02_data/P03_ingresos_dj.py:25-40 | a missing file raises; every row is converted and kept in order, or the read aborts at the first row that does not convert, naming its failing column |
| DjIncome.BasicMetrics | 02_data/P03_ingresos_dj.py:43-68 | (0, 0, 0) for no events; otherwise gross = Σ(base pay + tip) and net = Σ(gross − costs) over all events; with positive hours the rate times the hours is the net, otherwise the rate is 0 |
| DjIncome.NetIsGrossMinusCosts | 02_data/P03_ingresos_dj.py:58-63 | net income equals gross income minus total costs |
| DjIncome.CostsNonNegative | 02_data/P03_ingresos_dj.py:59 | with no negative cost field, total costs are non-negative |
| DjIncome.NetAtMostGross | 02_data/P03_ingresos_dj.py:58-63 | with no negative cost field, net income never exceeds gross income |
| Basics.Add | 01_basics/exercises.py:5-6 | `sumar`: the result minus either argument is the other |
| Basics.ToOtherCurrency | 01_basics/exercises.py:9-14 | undefined (ZeroDivisionError) exactly when the rate is 0; otherwise the converted amount times the rate is the amount in pesos |
| Basics.SpendPercent | 01_basics/exercises.py:17-23 | 0 for zero income; otherwise the percentage times the income is 100 times the spend |
| Basics.CleanFileNameWords | 01_basics/exercises.py:33-37 | the cleaned name is the input's words, each title-cased, joined by single spaces, and splitting it gives those words back |
| Basics.CleanFileNameShape | 01_basics/exercises.py:33-36 | no leading or trailing whitespace, and every whitespace character is a single space between two non-space characters |
| Basics.CleanFileNameEmpty | 01_basics/exercises.py:33-37 | the result is empty exactly when the input is all whitespace |
| Basics.CleanFileNameIdempotent | 01_basics/exercises.py:33-37 | cleaning a cleaned name changes nothing |
| Basics.TitleAfterDot | 01_basics/exercises.py:37-44 | `title()` gives "mi" → "Mi" and ".mp3" → ".Mp3": a letter after a non-letter is capitalised |
| Text.DropSpaces | 01_basics/exercises.py:33 | drops exactly the leading whitespace: a suffix of the input that is empty or starts with a non-whitespace character |
| Text.DropSpacesDropsSpaces | 01_basics/exercises.py:33 | every character `strip()` removes from the front is whitespace, so the leading whitespace and nothing more is dropped |
| Text.DropSpacesEmpty | 01_basics/exercises.py:33 | nothing is left after dropping leading whitespace exactly when the input is all whitespace |
| Text.DropSpacesEnd | 01_basics/exercises.py:33 | drops exactly the trailing whitespace: a prefix of the input followed only by whitespace |
| Text.DropSpacesEndLast | 01_basics/exercises.py:33 | what remains after removing trailing whitespace is empty or ends in a non-whitespace character, so the trailing whitespace and nothing more is dropped |
| Text.WordAt | 01_basics/exercises.py:35 | a prefix of the input that ends at the first whitespace character or at the end |
| Text.WordAtNoSpace | 01_basics/exercises.py:35 | that prefix holds no whitespace, so it is the longest whitespace-free prefix |
| Text.WordsAreWords | 01_basics/exercises.py:35 | `split()` yields non-empty whitespace-free words |
| Text.WordsAfterStrip | 01_basics/exercises.py:33-35 | stripping first does not change the words |
| Text.WordsEmpty | 01_basics/exercises.py:35 | there are no words exactly when the text is all whitespace |
| Text.WordsOfJoin | 01_basics/exercises.py:35-36 | splitting the single-space join of words gives back those words |
| Text.JoinShape | 01_basics/exercises.py:36 | the join of words is empty exactly when there are none, and its only whitespace is single interior spaces |
| Text.TitleOfJoin | 01_basics/exercises.py:36-37 | title-casing a join of words is the join of the title-cased words |
| Text.TitleCharacters | 01_basics/exercises.py:37 | `title()` lower-cases a character that follows a cased letter and upper-cases every other one |
| Text.TitleCaseOfRuns | 01_basics/exercises.py:37 | `title()` makes a letter that starts a run of cased characters upper case, and every cased character inside a run lower case |
| Text.TitleLatin1Example | 01_basics/exercises.py:37 | `title()` keeps the letter after the cased ordinal indicator `ª` in lower case, and starts a word with `ÿ` as `Ÿ` |
| Text.TitleFromIdempotent | 01_basics/exercises.py:37 | title-casing twice is title-casing once |
| Text.TitleWordsAreWords | 01_basics/exercises.py:37 | title-casing keeps words words |
| Text.Upper | 01_basics/exercises.py:37 | upper-casing keeps a character's casedness and whitespace class, leaves uncased characters alone, and turns every lower-case letter with a single-character upper case into an upper-case letter |
| Text.Lower | 01_basics/exercises.py:37 | lower-casing keeps a character's casedness and whitespace class, and leaves uncased characters alone |
| Practice.Savings | 01_basics/practica_bloque1.py:18-19 | `calcular_ahorro`: the savings plus the spend are the income |
| Practice.ScriptSavingsAgree | 01_basics/practica_bloque1.py:5-21 | the script's direct computation and the function agree on 300000 − (50000 + 20000) = 230000 |
| Practice.SpendPercentWithinRange | 01_basics/practica_bloque1.py:25-28 | the script's `porcentaje_gasto` has the exercise's body; a spend between 0 and a non-zero income is between 0 and 100 percent of it |

## Left out

- File and console I/O is not modelled. That covers `open`, `Path.exists`, `mkdir`, writing the report files, `print`, `input`, `exit` and the `__main__` blocks. Readers take an already-read file; calculations return values.
- CSV tokenising is not modelled; `csv.DictReader` is library code. So are ISO date parsing (`datetime.fromisoformat`), `float(...)` and `int(...)`. Each parse arrives as `Some(value)` or `None`.
- Short rows are not modelled. `DictReader` fills missing fields with `None`, and the parsers then raise `TypeError` rather than `ValueError`. In the finance reader that `TypeError` is not caught. The model treats every unparsable field as a parse failure.
- Missing numeric columns in the dashboard and DJ readers are not modelled. Those readers check no header, and a missing column raises `KeyError`. The model's rows always carry the fields.
- Dates are whole day numbers, so `(fecha_fin - fecha_inicio).days + 1` is a plain difference. Times of day, and the truncation of a partial day, are not modelled.
- FinanceSummary.Summarize: amounts are integers (the source reads them with `float`), so subtotals and totals are exact. The daily average, the dashboard mean, the per-category averages, the percentages and the hourly rate are exact reals, not IEEE doubles.
- Money.RoundHalfEven: rounds the exact real value. `:,.0f` rounds the binary double nearest to it, which can differ for values such as 2.675 that have no exact binary form.
- Money.FormatClpRoundTrip: a negative value that rounds to 0 prints as `$-0` in Python. The model prints `$0`.
- The `:.2f` formatting of averages, percentages and rates is not modelled.
- Of `generar_texto_reporte`, only the per-category lines are modelled. The title, separators, period, day count, total, daily average, top category and largest-movement lines are fixed text around already-modelled values. The same holds for the report writers of the expense analyser, the dashboard and the DJ analyser.
- Text.Upper: casing covers the cased characters of Basic Latin and Latin-1 (the ordinal indicators `ª` and `º` count as cased) and the three letters their case mappings reach (`Ÿ`, Greek `Μ` and `μ`). Other scripts and title-case digraphs are not modelled, and characters outside that range count as uncased for `title()`. The one-to-many mapping of `ß` is not modelled either: Python upper-cases it to "SS" and title-cases it to "Ss", but the model keeps it as `ß`.
- Basics.TitleAfterDot: the script's full example `"   mi   tema   favorito   .mp3   "` is not evaluated as one string. The lemma checks the two kinds of word it contains, and the CleanFileName lemmas cover the splitting and joining.
- The dashboard's chart (matplotlib) is not modelled.
- 03_projects/P04_redes_sociales/P04_analizador_redes.py is not part of this model. It only wraps pandas calls.

=== FILE: base.dfy ===
/** Failure-carrying result types shared by every module of the model. */
module Base {

  /** A value that may be absent: how the model sees a text field that may or may not parse. */
  datatype Option<+T> = None | Some(value: T)

  /** Either a value or the error (the Python exception) that replaced it. */
  datatype Result<+T, +E> = Ok(value: T) | Err(error: E)
}

=== FILE: basics.dfy ===
/** The helpers of the first exercises (01_basics/exercises.py). */
module Basics {
  import opened Base
  import opened Text

  /** `sumar(a, b)` */
  function Add(a: int, b: int): (r: int)
    ensures r - a == b && r - b == a
  {
    a + b
  }

  /**
   * `clp_a_otra_moneda(monto_clp, tipo_cambio)`: pesos divided by the pesos one
   * unit of the other currency costs. The division is unguarded: a rate of 0
   * raises ZeroDivisionError, modelled as None.
   */
  function ToOtherCurrency(amountClp: real, rate: real): (r: Option<real>)
    ensures r.None? <==> rate == 0.0
    ensures r.Some? ==> r.value * rate == amountClp
  {
    if rate == 0.0 then None else Some(amountClp / rate)
  }

  /** `porcentaje_gasto(monto_gasto, ingreso_mensual)`: the share of the income a spend takes, in percent; 0 for no income. */
  function SpendPercent(spend: real, income: real): (p: real)
    ensures income == 0.0 ==> p == 0.0
    ensures income != 0.0 ==> p * income == spend * 100.0
  {
    if income == 0.0 then 0.0 else spend / income * 100.0
  }

  /** `limpiar_nombre_archivo(nombre)`: strip, collapse whitespace runs to one space, title-case. */
  function CleanFileName(name: string): string
  {
    Title(Join(Words(Strip(name))))
  }

  /** The cleaned name is the input's words, each title-cased, joined by single spaces; splitting it gives those words back. */
  lemma CleanFileNameWords(name: string)
    ensures CleanFileName(name) == Join(TitleWords(Words(name)))
    ensures Words(CleanFileName(name)) == TitleWords(Words(name))
  {
    WordsAfterStrip(name);
    TitleOfJoin(Words(name));
    WordsAreWords(name);
    TitleWordsAreWords(Words(name));
    WordsOfJoin(TitleWords(Words(name)));
  }

  /** No leading or trailing whitespace, and every whitespace character is a single space between two non-space characters. */
  lemma CleanFileNameShape(name: string)
    ensures var r := CleanFileName(name);
      forall i :: 0 <= i < |r| && IsSpace(r[i]) ==>
        r[i] == ' ' && 0 < i < |r| - 1 && !IsSpace(r[i - 1]) && !IsSpace(r[i + 1])
  {
    var ws := TitleWords(Words(name));
    assert CleanFileName(name) == Join(ws) by { CleanFileNameWords(name); }
    assert AllWords(ws) by {
      WordsAreWords(name);
      TitleWordsAreWords(Words(name));
    }
    JoinShape(ws);
  }

  /** The result is empty exactly when the input is all whitespace. */
  lemma CleanFileNameEmpty(name: string)
    ensures CleanFileName(name) == [] <==> forall i :: 0 <= i < |name| ==> IsSpace(name[i])
  {
    CleanFileNameWords(name);
    WordsAreWords(name);
    TitleWordsAreWords(Words(name));
    JoinShape(TitleWords(Words(name)));
    WordsEmpty(name);
  }

  /** Cleaning a cleaned name changes nothing. */
  lemma CleanFileNameIdempotent(name: string)
    ensures CleanFileName(CleanFileName(name)) == CleanFileName(name)
  {
    var r := CleanFileName(name);
    CleanFileNameWords(name);
    CleanFileNameWords(r);
    TitleWordsIdempotent(Words(name));
  }

  /** title() upper-cases a letter after a non-letter: the ".mp3" of the script's example becomes ".Mp3". */
  lemma TitleAfterDot()
    ensures Title("mi") == "Mi" && Title(".mp3") == ".Mp3"
  {
    assert TitleFrom("i", true) == "i";
    assert TitleFrom("3", true) == "3";
    assert TitleFrom("p3", true) == "p3" by { assert "p3"[1..] == "3"; }
    assert TitleFrom("mp3", false) == "Mp3" by { assert "mp3"[1..] == "p3"; }
    assert TitleFrom(".mp3", false) == ".Mp3" by { assert ".mp3"[1..] == "mp3"; }
    assert TitleFrom("mi", false) == "Mi" by { assert "mi"[1..] == "i"; }
  }
}

=== FILE: csv.dfy ===
/**
 * The shape of an already-tokenised CSV file and the errors the readers raise.
 * Tokenising (csv.DictReader) is library code and not part of this model: a file
 * arrives as its header and its rows, each row already split into the fields the
 * reader asks for, with every numeric field given as the result of its parse.
 */
module Csv {
  import opened Base

  /** A CSV path as the readers see it: absent, or present with a header (None for an empty file) and rows. */
  datatype CsvFile<R> = Missing | Present(header: Option<seq<string>>, rows: seq<R>)

  /** The exceptions a reader can raise. */
  datatype ReadError =
    | FileNotFound                              // FileNotFoundError from open() or an explicit exists() check
    | SchemaError(found: Option<seq<string>>)   // ValueError: a required column is absent
    | HeaderNotIterable                         // TypeError: set.issubset(None) on a file without a header
    | BadValue(row: nat, column: string)        // ValueError from int(...) on the given data row and column

  /** Every required column name occurs in the header. */
  predicate HasColumns(header: Option<seq<string>>, required: set<string>)
  {
    header.Some? && forall c :: c in required ==> c in header.value
  }

  /**
   * The `for fila in lector: fila[...] = int(fila[...]); lista.append(fila)` loop:
   * converts every row in order and stops at the first conversion that raises.
   * `convert` yields the converted row or the name of the column whose int() failed.
   */
  method ConvertAll<R, T>(rows: seq<R>, convert: R -> Result<T, string>) returns (r: Result<seq<T>, ReadError>)
    ensures r.Ok? <==> forall i :: 0 <= i < |rows| ==> convert(rows[i]).Ok?
    ensures r.Ok? ==> |r.value| == |rows| && forall i :: 0 <= i < |rows| ==> r.value[i] == convert(rows[i]).value
    ensures r.Err? ==> r.error.BadValue? && r.error.row < |rows|
                       && convert(rows[r.error.row]) == Err(r.error.column)
                       && forall j :: 0 <= j < r.error.row ==> convert(rows[j]).Ok?
  {
    var out: seq<T> := [];
    var i := 0;
    while i < |rows|
      invariant 0 <= i <= |rows|
      invariant |out| == i
      invariant forall j :: 0 <= j < i ==> convert(rows[j]).Ok? && out[j] == convert(rows[j]).value
    {
      var c := convert(rows[i]);
      if c.Err? {
        return Err(BadValue(i, c.error));
      }
      out := out + [c.value];
      i := i + 1;
    }
    return Ok(out);
  }
}

=== FILE: dashboard.dfy ===
/**
 * The spending dashboard (02_data/P02_dashboard.py): reads expenses, then
 * computes the total, the mean amount, the per-category totals, the three
 * categories with the highest totals and the single largest expense.
 */
module Dashboard {
  import opened Base
  import opened Csv
  import opened Stats
  import opened Ledger
  import opened Sorting
  import ExpenseAnalysis

  type RawExpense = ExpenseAnalysis.RawExpense
  type Expense = ExpenseAnalysis.Expense

  /**
   * `leer_gastos` (dashboard version): no column check; a missing file raises,
   * and the first amount int() rejects aborts the read.
   */
  method ReadExpenses(file: CsvFile<RawExpense>) returns (r: Result<seq<Expense>, ReadError>)
    ensures file.Missing? ==> r == Err(FileNotFound)
    ensures file.Present? ==>
      var rows := file.rows;
      && (r.Ok? <==> forall i :: 0 <= i < |rows| ==> rows[i].amount.Some?)
      && (r.Ok? ==>
            && |r.value| == |rows|
            && forall i :: 0 <= i < |rows| ==>
                 rows[i].amount.Some?
                 && r.value[i] == ExpenseAnalysis.Expense(rows[i].category, rows[i].amount.value, rows[i].detail))
      && (r.Err? ==> r.error.BadValue? && r.error.column == "monto" && r.error.row < |rows|
                     && rows[r.error.row].amount.None?
                     && forall j :: 0 <= j < r.error.row ==> rows[j].amount.Some?)
  {
    if file.Missing? {
      return Err(FileNotFound);
    }
    r := ConvertAll(file.rows, ExpenseAnalysis.ToExpense);
  }

  /** `sorted(categorias.items(), key=lambda x: x[1], reverse=True)[:3]` */
  function TopThree(d: Dict<int>): (t: seq<(string, int)>)
    requires forall k :: k in d.keys ==> k in d.values
    ensures |t| == if |d.keys| < 3 then |d.keys| else 3
    ensures forall i :: 0 <= i < |t| ==> t[i] in d.Items() && t[i].0 in d.values && t[i].1 == d.values[t[i].0]
    ensures NonIncreasing(t)
    ensures forall p :: p in d.Items() && p !in t ==> forall i :: 0 <= i < |t| ==> p.1 <= t[i].1
    ensures multiset(t) <= multiset(d.Items())
    ensures forall v :: WithValue(t, v) <= WithValue(d.Items(), v)
  {
    var items := d.Items();
    var ranked := RankDesc(items);
    var n := if |ranked| < 3 then |ranked| else 3;
    assert |ranked| == |multiset(ranked)| == |multiset(items)| == |items|;
    TopOfRanking(items, ranked, n);
    TopOfRankingStable(items, n);
    EntriesOfItems(d);
    ranked[..n]
  }

  /** The first n pairs of a ranking of items are items, in non-increasing order, and no item left out beats any of them. */
  lemma TopOfRanking(items: seq<(string, int)>, ranked: seq<(string, int)>, n: nat)
    requires multiset(ranked) == multiset(items) && NonIncreasing(ranked) && n <= |ranked|
    ensures forall i :: 0 <= i < n ==> ranked[..n][i] in items
    ensures NonIncreasing(ranked[..n])
    ensures forall p :: p in items && p !in ranked[..n] ==> forall i :: 0 <= i < n ==> p.1 <= ranked[..n][i].1
    ensures multiset(ranked[..n]) <= multiset(items)
  {
    assert ranked == ranked[..n] + ranked[n..];
    forall i | 0 <= i < n
      ensures ranked[i] in items
    {
      assert ranked[i] in multiset(ranked);
    }
    forall p | p in items && p !in ranked[..n]
      ensures forall i :: 0 <= i < n ==> p.1 <= ranked[i].1
    {
      assert p in multiset(items);
      var j :| 0 <= j < |ranked| && ranked[j] == p;
    }
  }

  /**
   * Ties keep their input order in the first n pairs of the ranking: for every
   * subtotal, the pairs carrying it are the first ones carrying it among the items.
   */
  lemma TopOfRankingStable(items: seq<(string, int)>, n: nat)
    requires n <= |RankDesc(items)|
    ensures forall v :: WithValue(RankDesc(items)[..n], v) <= WithValue(items, v)
  {
    forall v
      ensures WithValue(RankDesc(items)[..n], v) <= WithValue(items, v)
    {
      WithValuePrefix(RankDesc(items), n, v);
      RankDescStable(items, v);
    }
  }

  /** Every pair of dict.items() is a key with its own value. */
  lemma EntriesOfItems(d: Dict<int>)
    requires forall k :: k in d.keys ==> k in d.values
    ensures forall p :: p in d.Items() ==> p.0 in d.values && p.1 == d.values[p.0]
  {
    forall p | p in d.Items()
      ensures p.0 in d.values && p.1 == d.values[p.0]
    {
      var k :| 0 <= k < |d.Items()| && d.Items()[k] == p;
    }
  }

  /** `total / len(gastos) if gastos else 0`, with `total` the sum of all amounts. */
  function MeanAmount(gastos: seq<Expense>): (m: real)
    ensures gastos == [] ==> m == 0.0
    ensures gastos != [] ==> m * |gastos| as real == Total(ExpenseAnalysis.Items(gastos)) as real
  {
    if gastos != [] then Ratio(Total(ExpenseAnalysis.Items(gastos)), |gastos|) else 0.0
  }

  /** The total is the sum of the amounts taken in order. */
  lemma {:induction false} TotalIsSumOfAmounts(gastos: seq<Expense>)
    ensures Total(ExpenseAnalysis.Items(gastos)) == Sum(KeysBy(gastos, ExpenseAnalysis.AmountOf))
  {
    if gastos != [] {
      var p := gastos[..|gastos| - 1];
      TotalIsSumOfAmounts(p);
      assert ExpenseAnalysis.Items(gastos)[..|gastos| - 1] == ExpenseAnalysis.Items(p);
      assert KeysBy(gastos, ExpenseAnalysis.AmountOf)[..|gastos| - 1] == KeysBy(p, ExpenseAnalysis.AmountOf);
    }
  }

  /** The mean amount lies between the smallest and the largest expense. */
  lemma MeanWithinAmounts(gastos: seq<Expense>)
    requires gastos != []
    ensures MinOf(KeysBy(gastos, ExpenseAnalysis.AmountOf)) as real <= MeanAmount(gastos) <= MaxOf(KeysBy(gastos, ExpenseAnalysis.AmountOf)) as real
  {
    var a := KeysBy(gastos, ExpenseAnalysis.AmountOf);
    TotalIsSumOfAmounts(gastos);
    CancelFactor(MeanAmount(gastos), Mean(a), |gastos| as real);
    MeanBetweenExtremes(a);
  }

  /** `max` over an empty list raises ValueError, so calcular_metricas fails on no expenses. */
  datatype MetricsError = EmptyList

  /** The tuple `(total, promedio, categorias, top3, gasto_max)`. */
  datatype Metrics = Metrics(
    total: int,
    mean: real,
    categories: Dict<int>,
    top3: seq<(string, int)>,
    largest: Expense)

  /**
   * `calcular_metricas`: with no expenses it raises; otherwise the total of
   * all amounts, the mean amount per expense, the per-category totals (keys in
   * first-appearance order), the top three categories by total and the first
   * expense with the greatest amount.
   */
  method CalculateMetrics(gastos: seq<Expense>) returns (r: Result<Metrics, MetricsError>)
    ensures r.Err? <==> gastos == []
    ensures r.Ok? ==>
      var m := r.value;
      var xs := ExpenseAnalysis.Items(gastos);
      && m.total == Total(xs)
      && m.mean == MeanAmount(gastos)
      && m.categories == Grouped(xs) && m.categories.Valid()
      && SumOver(m.categories.keys, m.categories.values) == m.total
      && m.top3 == TopThree(m.categories)
      && IsFirstMaxBy(gastos, ExpenseAnalysis.AmountOf, m.largest)
  {
    if gastos == [] {
      return Err(EmptyList);
    }
    var xs := ExpenseAnalysis.Items(gastos);
    var total := Total(xs);
    var mean := MeanAmount(gastos);
    var d := GroupTotals(xs);
    var top3 := TopThree(d);
    var b := FirstMaxIndex(KeysBy(gastos, ExpenseAnalysis.AmountOf));
    FirstMaxBy(gastos, ExpenseAnalysis.AmountOf);
    r := Ok(Metrics(total, mean, d, top3, gastos[b]));
  }
}

=== FILE: dj_income.dfy ===
/**
 * The DJ income analyser (02_data/P03_ingresos_dj.py): reads events with five
 * integer fields and accumulates gross income, net income and hours worked in
 * one pass, then derives the average hourly rate.
 */
module DjIncome {
  import opened Base
  import opened Csv
  import opened Stats

  /**
   * A data row: the five numeric columns already run through int() (None where
   * it raises); `text` holds the remaining columns, kept as they are.
   */
  datatype RawEvent = RawEvent(
    hours: Option<int>,
    basePay: Option<int>,
    tip: Option<int>,
    transport: Option<int>,
    otherCosts: Option<int>,
    text: map<string, string>)

  /** A row after the five int() conversions. */
  datatype Event = Event(hours: int, basePay: int, tip: int, transport: int, otherCosts: int, text: map<string, string>)

  /** The numeric columns, in the order `leer_eventos` converts them. */
  const NumericColumns: seq<string> := ["horas", "pago_base", "propina", "transporte", "otros_costos"]

  /** The parse result of numeric column k of a row. */
  function Field(row: RawEvent, k: nat): Option<int>
    requires k < 5
  {
    match k
    case 0 => row.hours
    case 1 => row.basePay
    case 2 => row.tip
    case 3 => row.transport
    case _ => row.otherCosts
  }

  /**
   * The five assignments `fila[col] = int(fila[col])` of one row: the row
   * converts when all five parse; otherwise the first column, in conversion
   * order, that does not parse is the one that raises.
   */
  function ToEvent(row: RawEvent): (r: Result<Event, string>)
    ensures r.Ok? <==> row.hours.Some? && row.basePay.Some? && row.tip.Some? && row.transport.Some? && row.otherCosts.Some?
    ensures r.Ok? ==> r.value == Event(row.hours.value, row.basePay.value, row.tip.value,
                                       row.transport.value, row.otherCosts.value, row.text)
    ensures r.Err? ==> exists k :: 0 <= k < 5 && r.error == NumericColumns[k] && Field(row, k).None?
                                   && forall j :: 0 <= j < k ==> Field(row, j).Some?
  {
    assert Field(row, 0) == row.hours && Field(row, 1) == row.basePay && Field(row, 2) == row.tip
        && Field(row, 3) == row.transport && Field(row, 4) == row.otherCosts;
    if row.hours.None? then Err("horas")
    else if row.basePay.None? then Err("pago_base")
    else if row.tip.None? then Err("propina")
    else if row.transport.None? then Err("transporte")
    else if row.otherCosts.None? then Err("otros_costos")
    else Ok(Event(row.hours.value, row.basePay.value, row.tip.value, row.transport.value, row.otherCosts.value, row.text))
  }

  /**
   * `leer_eventos`: a missing file raises; otherwise every row is converted, in
   * order, and the first value int() rejects aborts the read.
   */
  method ReadEvents(file: CsvFile<RawEvent>) returns (r: Result<seq<Event>, ReadError>)
    ensures file.Missing? ==> r == Err(FileNotFound)
    ensures file.Present? ==>
      var rows := file.rows;
      && (r.Ok? <==> forall i :: 0 <= i < |rows| ==> ToEvent(rows[i]).Ok?)
      && (r.Ok? ==> |r.value| == |rows| && forall i :: 0 <= i < |rows| ==> r.value[i] == ToEvent(rows[i]).value)
      && (r.Err? ==> r.error.BadValue? && r.error.row < |rows|
                     && ToEvent(rows[r.error.row]) == Err(r.error.column)
                     && forall j :: 0 <= j < r.error.row ==> ToEvent(rows[j]).Ok?)
  {
    if file.Missing? {
      return Err(FileNotFound);
    }
    r := ConvertAll(file.rows, ToEvent);
  }

  /** Σ (pago_base + propina) */
  function Gross(es: seq<Event>): int
  {
    if es == [] then 0 else Gross(es[..|es| - 1]) + (es[|es| - 1].basePay + es[|es| - 1].tip)
  }

  /** Σ (transporte + otros_costos) */
  function Costs(es: seq<Event>): int
  {
    if es == [] then 0 else Costs(es[..|es| - 1]) + (es[|es| - 1].transport + es[|es| - 1].otherCosts)
  }

  /** Σ (pago_base + propina − (transporte + otros_costos)), event by event. */
  function Net(es: seq<Event>): int
  {
    if es == [] then 0
    else
      var e := es[|es| - 1];
      Net(es[..|es| - 1]) + ((e.basePay + e.tip) - (e.transport + e.otherCosts))
  }

  /** Σ horas */
  function Hours(es: seq<Event>): int
  {
    if es == [] then 0 else Hours(es[..|es| - 1]) + es[|es| - 1].hours
  }

  /**
   * `calcular_metricas_basicas`: no events give (0, 0, 0). Otherwise one loop
   * accumulates gross income, net income and hours; the rate is net income per
   * hour when the hours are positive, and 0 otherwise.
   */
  method BasicMetrics(events: seq<Event>) returns (gross: int, net: int, rate: real)
    ensures events == [] ==> gross == 0 && net == 0 && rate == 0.0
    ensures gross == Gross(events) && net == Net(events)
    ensures Hours(events) > 0 ==> rate * Hours(events) as real == net as real
    ensures Hours(events) <= 0 ==> rate == 0.0
  {
    if events == [] {
      return 0, 0, 0.0;
    }
    gross := 0;
    net := 0;
    var hours := 0;
    var i := 0;
    while i < |events|
      invariant 0 <= i <= |events|
      invariant gross == Gross(events[..i]) && net == Net(events[..i]) && hours == Hours(events[..i])
    {
      var e := events[i];
      var g := e.basePay + e.tip;
      var c := e.transport + e.otherCosts;
      assert events[..i + 1][..i] == events[..i];
      gross := gross + g;
      net := net + (g - c);
      hours := hours + e.hours;
      i := i + 1;
    }
    assert events[..i] == events;
    rate := if hours > 0 then Ratio(net, hours) else 0.0;
  }

  /** Net income is gross income minus total costs. */
  lemma {:induction false} NetIsGrossMinusCosts(es: seq<Event>)
    ensures Net(es) == Gross(es) - Costs(es)
  {
    if es != [] {
      NetIsGrossMinusCosts(es[..|es| - 1]);
    }
  }

  /** With no negative cost field, the costs add up to a non-negative amount. */
  lemma {:induction false} CostsNonNegative(es: seq<Event>)
    requires forall i :: 0 <= i < |es| ==> es[i].transport >= 0 && es[i].otherCosts >= 0
    ensures Costs(es) >= 0
  {
    if es != [] {
      CostsNonNegative(es[..|es| - 1]);
    }
  }

  /** With no negative cost field, net income never exceeds gross income. */
  lemma NetAtMostGross(es: seq<Event>)
    requires forall i :: 0 <= i < |es| ==> es[i].transport >= 0 && es[i].otherCosts >= 0
    ensures Net(es) <= Gross(es)
  {
    NetIsGrossMinusCosts(es);
    CostsNonNegative(es);
  }
}

=== FILE: expense_analysis.dfy ===
/**
 * The expense analyser (02_data/analisis_gastos.py): reads expenses with an
 * integer amount, totals them, groups them by category, averages each
 * category and expresses each category's spend as a percentage of the total.
 */
module ExpenseAnalysis {
  import opened Base
  import opened Csv
  import opened Stats
  import opened Ledger

  /** A data row: `monto` already run through int(), None where int() raises. */
  datatype RawExpense = RawExpense(category: string, amount: Option<int>, detail: string)

  /** A row after `fila["monto"] = int(fila["monto"])`. */
  datatype Expense = Expense(category: string, amount: int, detail: string)

  const RequiredColumns: set<string> := {"categoria", "monto", "detalle"}

  function ToExpense(row: RawExpense): Result<Expense, string>
  {
    if row.amount.Some? then Ok(Expense(row.category, row.amount.value, row.detail)) else Err("monto")
  }

  /**
   * `leer_gastos`: a missing file raises FileNotFoundError; a file without a
   * header makes `issubset(None)` raise TypeError; a header lacking a required
   * column gives the empty list; otherwise every row is converted in order and
   * the first amount int() rejects aborts the read.
   */
  method ReadExpenses(file: CsvFile<RawExpense>) returns (r: Result<seq<Expense>, ReadError>)
    ensures file.Missing? ==> r == Err(FileNotFound)
    ensures file.Present? && file.header.None? ==> r == Err(HeaderNotIterable)
    ensures file.Present? && file.header.Some? && !HasColumns(file.header, RequiredColumns) ==> r == Ok([])
    ensures file.Present? && HasColumns(file.header, RequiredColumns) ==>
      var rows := file.rows;
      && (r.Ok? <==> forall i :: 0 <= i < |rows| ==> rows[i].amount.Some?)
      && (r.Ok? ==>
            && |r.value| == |rows|
            && forall i :: 0 <= i < |rows| ==>
                 rows[i].amount.Some? && r.value[i] == Expense(rows[i].category, rows[i].amount.value, rows[i].detail))
      && (r.Err? ==> r.error.BadValue? && r.error.column == "monto" && r.error.row < |rows|
                     && rows[r.error.row].amount.None?
                     && forall j :: 0 <= j < r.error.row ==> rows[j].amount.Some?)
  {
    if file.Missing? {
      return Err(FileNotFound);
    }
    if file.header.None? {
      return Err(HeaderNotIterable);
    }
    if !HasColumns(file.header, RequiredColumns) {
      return Ok([]);
    }
    r := ConvertAll(file.rows, ToExpense);
  }

  function AmountOf(e: Expense): int
  {
    e.amount
  }

  function Items(gastos: seq<Expense>): (xs: seq<Item>)
    ensures |xs| == |gastos|
    ensures forall i :: 0 <= i < |gastos| ==> xs[i] == Item(gastos[i].category, gastos[i].amount)
  {
    seq(|gastos|, i requires 0 <= i < |gastos| => Item(gastos[i].category, gastos[i].amount))
  }

  /**
   * `total_gastado`: the sum of all amounts, which is also the sum of the
   * per-category subtotals `gastos_por_categoria` yields; nothing spent gives 0.
   */
  function TotalSpent(gastos: seq<Expense>): (t: int)
    ensures gastos == [] ==> t == 0
    ensures var g := Grouped(Items(gastos));
      (forall c :: c in g.keys ==> c in g.values) && t == SumOver(g.keys, g.values)
  {
    GroupedSpec(Items(gastos));
    TotalsSumToTotal(Items(gastos));
    Total(Items(gastos))
  }

  /**
   * `promedio_por_categoria`: first the amounts of each category are gathered
   * in a list, then each list is averaged. The result has one key per category,
   * in first-appearance order, mapped to the mean of that category's amounts.
   */
  method AveragesByCategory(gastos: seq<Expense>) returns (avg: Dict<real>)
    ensures avg.Valid()
    ensures avg.keys == Categories(Items(gastos))
    ensures forall c :: c in avg.values ==>
              |Amounts(Items(gastos), c)| >= 1 && avg.values[c] == Mean(Amounts(Items(gastos), c))
  {
    var xs := Items(gastos);
    var lists := GroupAmounts(xs);
    var keys := lists.keys;

    var avgKeys: seq<string> := [];
    var avgs: map<string, real> := map[];
    var k := 0;
    while k < |keys|
      invariant 0 <= k <= |keys|
      invariant avgKeys == keys[..k]
      invariant forall c :: c in avgs <==> c in keys[..k]
      invariant forall c :: c in avgs ==> |Amounts(xs, c)| >= 1 && avgs[c] == Mean(Amounts(xs, c))
    {
      var c := keys[k];
      assert keys[..k + 1] == keys[..k] + [c];
      avgs := avgs[c := Mean(lists.values[c])];
      avgKeys := avgKeys + [c];
      k := k + 1;
    }
    assert keys[..k] == keys;
    avg := Dict(avgKeys, avgs);
  }

  /** `(monto / total) * 100 if total > 0 else 0`: the share of the total, in percent. */
  function Percent(amount: int, total: int): (p: real)
    ensures total <= 0 ==> p == 0.0
    ensures total > 0 ==> p * total as real == (amount * 100) as real
  {
    if total > 0 then
      var q := amount as real / total as real;
      assert q * total as real == amount as real;
      assert q * 100.0 * total as real == q * total as real * 100.0;
      q * 100.0
    else 0.0
  }

  /** A non-negative amount that does not exceed a positive total is between 0 and 100 percent of it. */
  lemma PercentWithinRange(amount: int, total: int)
    requires 0 <= amount <= total && total > 0
    ensures 0.0 <= Percent(amount, total) <= 100.0
  {
    var p := Percent(amount, total);
    MulAsReal(amount, 100);
    MulAsReal(total, 100);
    DivideBothSides(0.0, p, total as real);
    DivideBothSides(p, 100.0, total as real);
  }

  /**
   * With non-negative amounts, every category's printed percentage lies in
   * [0, 100]: its subtotal is one of the non-negative terms of the total, and a
   * zero total prints 0.
   */
  lemma CategoryPercentInRange(gastos: seq<Expense>, c: string)
    requires forall i :: 0 <= i < |gastos| ==> gastos[i].amount >= 0
    requires c in Grouped(Items(gastos)).values
    ensures 0.0 <= Percent(Grouped(Items(gastos)).values[c], TotalSpent(gastos)) <= 100.0
  {
    var xs := Items(gastos);
    var g := Grouped(xs);
    var total := TotalSpent(gastos);
    TotalsNonNegative(xs);
    CategoriesSpec(xs);
    SumOverBounds(g.keys, g.values, c);
    if total > 0 {
      PercentWithinRange(g.values[c], total);
    }
  }

  /** The percentages printed for the keys ks, added up. */
  function PercentSum(ks: seq<string>, m: map<string, int>, total: int): real
    requires forall k :: k in ks ==> k in m
  {
    if ks == [] then 0.0 else PercentSum(ks[..|ks| - 1], m, total) + Percent(m[ks[|ks| - 1]], total)
  }

  lemma {:induction false} PercentSumTimesTotal(ks: seq<string>, m: map<string, int>, total: int)
    requires forall k :: k in ks ==> k in m
    requires total > 0
    ensures PercentSum(ks, m, total) * total as real == (SumOver(ks, m) * 100) as real
  {
    if ks != [] {
      var p := ks[..|ks| - 1];
      var a := PercentSum(p, m, total);
      var b := Percent(m[ks[|ks| - 1]], total);
      PercentSumTimesTotal(p, m, total);
      assert (a + b) * total as real == a * total as real + b * total as real;
    }
  }

  /**
   * The per-category percentages of a non-zero total add up to 100: every
   * amount is accounted for exactly once. (A negative total prints 0 for every
   * category instead.)
   */
  lemma PercentagesAddUp(gastos: seq<Expense>)
    requires TotalSpent(gastos) > 0
    ensures var g := Grouped(Items(gastos));
      (forall c :: c in g.keys ==> c in g.values)
      && PercentSum(g.keys, g.values, TotalSpent(gastos)) == 100.0
  {
    var g := Grouped(Items(gastos));
    PercentsOfWholeTotal(g.keys, g.values, TotalSpent(gastos));
  }

  lemma PercentsOfWholeTotal(ks: seq<string>, m: map<string, int>, total: int)
    requires forall k :: k in ks ==> k in m
    requires total > 0 && SumOver(ks, m) == total
    ensures PercentSum(ks, m, total) == 100.0
  {
    var p := PercentSum(ks, m, total);
    PercentSumTimesTotal(ks, m, total);
    MulAsReal(total, 100);
    CancelFactor(p, 100.0, total as real);
  }

  /**
   * Three expenses, two of them food: the total is 13500, food totals 10500
   * and transport 3000, in that key order, and food is 10500/13500 of the spend.
   */
  lemma ThreeExpensesExample()
    ensures var gastos := [Expense("comida", 8500, "almuerzo"), Expense("transporte", 3000, "metro"), Expense("comida", 2000, "cafe")];
      var g := Grouped(Items(gastos));
      && TotalSpent(gastos) == 13500
      && g.keys == ["comida", "transporte"]
      && g.values == map["comida" := 10500, "transporte" := 3000]
      && Percent(10500, 13500) * 13500.0 == 1050000.0
  {
    var gastos := [Expense("comida", 8500, "almuerzo"), Expense("transporte", 3000, "metro"), Expense("comida", 2000, "cafe")];
    var xs := Items(gastos);
    var one := [Item("comida", 8500)];
    var two := one + [Item("transporte", 3000)];
    assert xs == two + [Item("comida", 2000)];
    assert one[..0] == [] && two[..1] == one && xs[..2] == two;
    assert "transporte" != "comida" by { assert "transporte"[0] != "comida"[0]; }
    assert Categories(one) == ["comida"] && Totals(one) == map["comida" := 8500] && Total(one) == 8500;
    assert Categories(two) == ["comida", "transporte"];
    assert Totals(two) == map["comida" := 8500, "transporte" := 3000] && Total(two) == 11500;
    assert Categories(xs) == ["comida", "transporte"];
    assert Totals(xs) == map["comida" := 10500, "transporte" := 3000];
  }
}

=== FILE: finance.dfy ===
/**
 * The personal-finance analyser (03_projects/P03_finanzas_personales/analizador_finanzas.py):
 * reads movements, skipping rows whose date or amount does not parse, summarises
 * them (period, per-category spend, total, daily average, top category, largest
 * movement) and writes the per-category lines of the report in name order.
 * Dates are day numbers; amounts are whole pesos.
 */
module FinanceSummary {
  import opened Base
  import opened Csv
  import opened Stats
  import opened Ledger
  import Sorting
  import Money

  /** A data row as `leer_movimientos` sees it: `fecha` and `monto` already run through their parsers. */
  datatype RawMovement = RawMovement(date: Option<int>, category: string, amount: Option<int>, detail: string)

  /** `Movimiento` */
  datatype Movement = Movement(date: int, category: string, amount: int, detail: string)

  /** Why a row was left out; the script prints a warning naming the bad field. */
  datatype SkipReason = InvalidDate | InvalidAmount

  /** The rows kept, in order, and the (row number, reason) of every row skipped. */
  datatype Loaded = Loaded(movements: seq<Movement>, skipped: seq<(nat, SkipReason)>)

  const RequiredColumns: set<string> := {"fecha", "categoria", "monto", "detalle"}

  /** The two try/except blocks of one row: the date is tried first, then the amount. */
  function Accept(row: RawMovement): (r: Result<Movement, SkipReason>)
    ensures r.Ok? <==> row.date.Some? && row.amount.Some?
    ensures r.Ok? ==> r.value == Movement(row.date.value, row.category, row.amount.value, row.detail)
    ensures r == Err(InvalidDate) <==> row.date.None?
    ensures r == Err(InvalidAmount) <==> row.date.Some? && row.amount.None?
  {
    if row.date.None? then Err(InvalidDate)
    else if row.amount.None? then Err(InvalidAmount)
    else Ok(Movement(row.date.value, row.category, row.amount.value, row.detail))
  }

  /** The movements the loop appends. */
  function Kept(rows: seq<RawMovement>): seq<Movement>
  {
    if rows == [] then []
    else
      var a := Accept(rows[|rows| - 1]);
      Kept(rows[..|rows| - 1]) + (if a.Ok? then [a.value] else [])
  }

  /** The rows the loop skips, with their position among the data rows. */
  function Skipped(rows: seq<RawMovement>): seq<(nat, SkipReason)>
  {
    if rows == [] then []
    else
      var a := Accept(rows[|rows| - 1]);
      Skipped(rows[..|rows| - 1]) + (if a.Err? then [(|rows| - 1, a.error)] else [])
  }

  /** The positions of the rows that are kept. */
  function KeptPositions(rows: seq<RawMovement>): seq<nat>
  {
    if rows == [] then []
    else KeptPositions(rows[..|rows| - 1]) + (if Accept(rows[|rows| - 1]).Ok? then [|rows| - 1] else [])
  }

  /**
   * `leer_movimientos`: a missing file and a header without the four columns
   * are errors; otherwise every row whose date and amount parse becomes a
   * movement and every other row is skipped.
   */
  method ReadMovements(file: CsvFile<RawMovement>) returns (r: Result<Loaded, ReadError>)
    ensures file.Missing? ==> r == Err(FileNotFound)
    ensures file.Present? && !HasColumns(file.header, RequiredColumns) ==> r == Err(SchemaError(file.header))
    ensures file.Present? && HasColumns(file.header, RequiredColumns) ==> r == Ok(Loaded(Kept(file.rows), Skipped(file.rows)))
  {
    if file.Missing? {
      return Err(FileNotFound);
    }
    if !HasColumns(file.header, RequiredColumns) {
      return Err(SchemaError(file.header));
    }
    var rows := file.rows;
    var movements: seq<Movement> := [];
    var skipped: seq<(nat, SkipReason)> := [];
    var i := 0;
    while i < |rows|
      invariant 0 <= i <= |rows|
      invariant movements == Kept(rows[..i]) && skipped == Skipped(rows[..i])
    {
      assert rows[..i + 1][..i] == rows[..i];
      var row := rows[i];
      if row.date.None? {
        skipped := skipped + [(i, InvalidDate)];
        i := i + 1;
        continue;
      }
      if row.amount.None? {
        skipped := skipped + [(i, InvalidAmount)];
        i := i + 1;
        continue;
      }
      movements := movements + [Movement(row.date.value, row.category, row.amount.value, row.detail)];
      i := i + 1;
    }
    assert rows[..i] == rows;
    return Ok(Loaded(movements, skipped));
  }

  /**
   * The kept movements are exactly the rows whose date and amount parse, in
   * input order: a subsequence of the rows. Every other row is reported as
   * skipped, so kept and skipped together account for every row.
   */
  lemma KeptInInputOrder(rows: seq<RawMovement>)
    ensures |Kept(rows)| == |KeptPositions(rows)|
    ensures |Kept(rows)| + |Skipped(rows)| == |rows|
    ensures forall k :: 0 <= k < |KeptPositions(rows)| ==>
              KeptPositions(rows)[k] < |rows| && Accept(rows[KeptPositions(rows)[k]]) == Ok(Kept(rows)[k])
    ensures forall k, l :: 0 <= k < l < |KeptPositions(rows)| ==> KeptPositions(rows)[k] < KeptPositions(rows)[l]
    ensures forall i :: 0 <= i < |rows| ==> (i in KeptPositions(rows) <==> Accept(rows[i]).Ok?)
  {
    KeptAtPositions(rows);
    KeptPositionsExact(rows);
  }

  lemma {:induction false} KeptAtPositions(rows: seq<RawMovement>)
    ensures |Kept(rows)| == |KeptPositions(rows)|
    ensures |Kept(rows)| + |Skipped(rows)| == |rows|
    ensures forall k :: 0 <= k < |KeptPositions(rows)| ==>
              KeptPositions(rows)[k] < |rows| && Accept(rows[KeptPositions(rows)[k]]) == Ok(Kept(rows)[k])
    ensures forall k, l :: 0 <= k < l < |KeptPositions(rows)| ==> KeptPositions(rows)[k] < KeptPositions(rows)[l]
  {
    if rows != [] {
      var p := rows[..|rows| - 1];
      KeptAtPositions(p);
      var ps, ks := KeptPositions(p), Kept(p);
      forall k | 0 <= k < |ps|
        ensures rows[ps[k]] == p[ps[k]]
      {
      }
      var a := Accept(rows[|p|]);
      if a.Ok? {
        assert KeptPositions(rows) == ps + [|p|];
        assert Kept(rows) == ks + [a.value];
      } else {
        assert KeptPositions(rows) == ps + [];
        assert Kept(rows) == ks + [];
      }
    }
  }

  lemma {:induction false} KeptPositionsExact(rows: seq<RawMovement>)
    ensures forall i :: 0 <= i < |rows| ==> (i in KeptPositions(rows) <==> Accept(rows[i]).Ok?)
    ensures forall j :: j in KeptPositions(rows) ==> j < |rows|
  {
    if rows != [] {
      var p := rows[..|rows| - 1];
      KeptPositionsExact(p);
      var ps := KeptPositions(p);
      var tail := if Accept(rows[|p|]).Ok? then [|p|] else [];
      assert KeptPositions(rows) == ps + tail;
      forall i | 0 <= i < |rows|
        ensures i in KeptPositions(rows) <==> Accept(rows[i]).Ok?
      {
        assert i in ps + tail <==> i in ps || i in tail;
        if i < |p| {
          assert rows[i] == p[i];
        }
      }
    }
  }

  /**
   * Every row whose date or amount does not parse is reported, with its
   * position and the first field that failed, in input order.
   */
  lemma SkippedRows(rows: seq<RawMovement>)
    ensures forall k :: 0 <= k < |Skipped(rows)| ==>
              Skipped(rows)[k].0 < |rows| && Accept(rows[Skipped(rows)[k].0]) == Err(Skipped(rows)[k].1)
    ensures forall k, l :: 0 <= k < l < |Skipped(rows)| ==> Skipped(rows)[k].0 < Skipped(rows)[l].0
    ensures forall i :: 0 <= i < |rows| && Accept(rows[i]).Err? ==> (i, Accept(rows[i]).error) in Skipped(rows)
  {
    SkippedAreRejected(rows);
    RejectedAreSkipped(rows);
  }

  lemma {:induction false} SkippedAreRejected(rows: seq<RawMovement>)
    ensures forall k :: 0 <= k < |Skipped(rows)| ==>
              Skipped(rows)[k].0 < |rows| && Accept(rows[Skipped(rows)[k].0]) == Err(Skipped(rows)[k].1)
    ensures forall k, l :: 0 <= k < l < |Skipped(rows)| ==> Skipped(rows)[k].0 < Skipped(rows)[l].0
  {
    if rows != [] {
      var p := rows[..|rows| - 1];
      SkippedAreRejected(p);
      var sp := Skipped(p);
      forall k | 0 <= k < |sp|
        ensures rows[sp[k].0] == p[sp[k].0]
      {
      }
    }
  }

  lemma {:induction false} RejectedAreSkipped(rows: seq<RawMovement>)
    ensures forall i :: 0 <= i < |rows| && Accept(rows[i]).Err? ==> (i, Accept(rows[i]).error) in Skipped(rows)
  {
    if rows != [] {
      var p := rows[..|rows| - 1];
      RejectedAreSkipped(p);
      forall i | 0 <= i < |p|
        ensures rows[i] == p[i]
      {
      }
    }
  }

  /** calcular_resumen on an empty list raises ValueError. */
  datatype SummaryError = NoMovements

  /** `ResumenFinanciero`; the dict `gasto_por_categoria` keeps its insertion order. */
  datatype Summary = Summary(
    firstDate: int,
    lastDate: int,
    days: int,
    count: int,
    total: int,
    dailyAverage: real,
    byCategory: Dict<int>,
    topCategory: string,
    topAmount: int,
    largest: Movement)

  function Items(movs: seq<Movement>): (xs: seq<Item>)
    ensures |xs| == |movs|
    ensures forall i :: 0 <= i < |movs| ==> xs[i] == Item(movs[i].category, movs[i].amount)
  {
    seq(|movs|, i requires 0 <= i < |movs| => Item(movs[i].category, movs[i].amount))
  }

  function Dates(movs: seq<Movement>): (ds: seq<int>)
    ensures |ds| == |movs|
    ensures forall i :: 0 <= i < |movs| ==> ds[i] == movs[i].date
  {
    seq(|movs|, i requires 0 <= i < |movs| => movs[i].date)
  }

  function AmountOf(m: Movement): int
  {
    m.amount
  }

  /** The values of a dict in its key order (what `max(d.items(), key=...)` scans). */
  function ValuesInOrder(d: Dict<int>): (vs: seq<int>)
    requires forall k :: k in d.keys ==> k in d.values
    ensures |vs| == |d.keys|
    ensures forall i :: 0 <= i < |d.keys| ==> vs[i] == d.values[d.keys[i]]
  {
    seq(|d.keys|, i requires 0 <= i < |d.keys| => d.values[d.keys[i]])
  }

  /** The period spans every movement's date, from one movement's date to another's. */
  ghost predicate IsPeriod(movs: seq<Movement>, first: int, last: int)
  {
    && first in Dates(movs) && last in Dates(movs)
    && forall m :: m in movs ==> first <= m.date <= last
  }

  /** `top` has the greatest subtotal, and no category inserted before it reaches that subtotal. */
  ghost predicate IsTopCategory(d: Dict<int>, top: string, amount: int)
  {
    && top in d.values && amount == d.values[top]
    && (forall c :: c in d.values ==> d.values[c] <= amount)
    && exists t :: 0 <= t < |d.keys| && d.keys[t] == top
                   && forall j :: 0 <= j < t ==> d.keys[j] in d.values && d.values[d.keys[j]] < amount
  }

  lemma PeriodOfDates(movs: seq<Movement>)
    requires movs != []
    ensures IsPeriod(movs, MinOf(Dates(movs)), MaxOf(Dates(movs)))
  {
    var ds := Dates(movs);
    forall m | m in movs
      ensures MinOf(ds) <= m.date <= MaxOf(ds)
    {
      var i :| 0 <= i < |movs| && movs[i] == m;
      assert ds[i] == m.date && ds[i] in ds;
    }
  }

  lemma TopOfValues(d: Dict<int>)
    requires d.Valid() && d.keys != []
    ensures var t := FirstMaxIndex(ValuesInOrder(d));
      IsTopCategory(d, d.keys[t], d.values[d.keys[t]])
  {
    var vs := ValuesInOrder(d);
    var t := FirstMaxIndex(vs);
    forall c | c in d.values
      ensures d.values[c] <= d.values[d.keys[t]]
    {
      var k :| 0 <= k < |d.keys| && d.keys[k] == c;
      assert vs[k] == d.values[c];
    }
  }

  lemma CategoriesOfMovements(movs: seq<Movement>)
    ensures forall c :: c in Grouped(Items(movs)).values <==> exists m :: m in movs && m.category == c
  {
    var xs := Items(movs);
    GroupedSpec(xs);
    forall c
      ensures c in Grouped(xs).values <==> exists m :: m in movs && m.category == c
    {
      if c in Grouped(xs).values {
        var i :| 0 <= i < |xs| && xs[i].category == c;
        assert movs[i] in movs;
      }
      if exists m :: m in movs && m.category == c {
        var m :| m in movs && m.category == c;
        var i :| 0 <= i < |movs| && movs[i] == m;
        assert xs[i].category == c;
      }
    }
  }

  /**
   * `calcular_resumen`: an empty list is an error. Otherwise the period runs
   * from the earliest to the latest date, both included; the per-category dict
   * sums the amounts of each category (keys in first-appearance order); the
   * total is the sum of its values, which is the sum of all amounts; the top
   * category is the first-inserted one with the greatest subtotal; the largest
   * movement is the earliest one with the greatest amount.
   */
  method Summarize(movs: seq<Movement>) returns (r: Result<Summary, SummaryError>)
    ensures r.Err? <==> movs == []
    ensures r.Ok? ==>
      var s := r.value;
      && IsPeriod(movs, s.firstDate, s.lastDate)
      && s.days == s.lastDate - s.firstDate + 1 && s.days >= 1
      && s.count == |movs|
      && s.byCategory == Grouped(Items(movs)) && s.byCategory.Valid()
      && s.total == Total(Items(movs))
      && s.dailyAverage == Ratio(s.total, s.days)
      && IsTopCategory(s.byCategory, s.topCategory, s.topAmount)
      && IsFirstMaxBy(movs, AmountOf, s.largest)
  {
    if movs == [] {
      return Err(NoMovements);
    }
    var dates := Dates(movs);
    var first := MinOf(dates);
    var last := MaxOf(dates);
    var days := last - first + 1;
    PeriodOfDates(movs);

    var xs := Items(movs);
    var d := GroupTotals(xs);
    var total := SumOver(d.keys, d.values);
    var average := Ratio(total, days);

    assert xs[0].category in d.values;
    var t := FirstMaxIndex(ValuesInOrder(d));
    var top := d.keys[t];
    TopOfValues(d);

    var b := FirstMaxIndex(KeysBy(movs, AmountOf));
    FirstMaxBy(movs, AmountOf);
    r := Ok(Summary(first, last, days, |movs|, total, average, d, top, d.values[top], movs[b]));
  }

  function Spaces(n: nat): (r: string)
    ensures |r| == n && forall i :: 0 <= i < n ==> r[i] == ' '
  {
    if n == 0 then "" else Spaces(n - 1) + " "
  }

  /** `{texto:<n}`: the text, padded with spaces on the right to at least n characters. */
  function PadRight(s: string, n: nat): (r: string)
    ensures |r| == if |s| < n then n else |s|
    ensures r[..|s|] == s && forall i :: |s| <= i < |r| ==> r[i] == ' '
  {
    if |s| < n then s + Spaces(n - |s|) else s
  }

  /** `{texto:>n}`: the text, padded with spaces on the left to at least n characters. */
  function PadLeft(s: string, n: nat): (r: string)
    ensures |r| == if |s| < n then n else |s|
    ensures r[|r| - |s|..] == s && forall i :: 0 <= i < |r| - |s| ==> r[i] == ' '
  {
    if |s| < n then Spaces(n - |s|) + s else s
  }

  /** One report line: f"  - {categoria:<15} {formato_clp(monto):>12}". */
  function CategoryLine(name: string, amount: int): string
  {
    "  - " + PadRight(name, 15) + " " + PadLeft(Money.FormatClp(amount as real), 12)
  }

  /** Sorting the keys of a dict by name lists every category once, in strictly ascending order. */
  lemma SortedCategoryNames(d: Dict<int>)
    requires d.Valid()
    ensures var names := Sorting.ByName(d.keys);
      && |names| == |d.keys|
      && Sorting.NamesStrictlyAscending(names)
      && forall c :: c in names <==> c in d.values
  {
    var names := Sorting.ByName(d.keys);
    assert |names| == |multiset(names)| == |multiset(d.keys)| == |d.keys|;
    assert forall c :: c in names <==> c in multiset(d.keys);
  }

  /** The `for categoria, monto in ...: lineas.append(...)` loop: one line per name, in the given order. */
  method AppendCategoryLines(names: seq<string>, subtotals: map<string, int>) returns (lines: seq<string>)
    requires forall c :: c in names ==> c in subtotals
    ensures |lines| == |names|
    ensures forall i :: 0 <= i < |lines| ==> lines[i] == CategoryLine(names[i], subtotals[names[i]])
  {
    lines := [];
    var i := 0;
    while i < |names|
      invariant 0 <= i <= |names|
      invariant |lines| == i
      invariant forall j :: 0 <= j < i ==> lines[j] == CategoryLine(names[j], subtotals[names[j]])
    {
      var line := CategoryLine(names[i], subtotals[names[i]]);
      assert forall j :: 0 <= j < i ==> (lines + [line])[j] == lines[j];
      lines := lines + [line];
      i := i + 1;
    }
  }

  /**
   * The per-category part of `generar_texto_reporte`: one line per category,
   * categories in strictly ascending name order (not in subtotal order).
   */
  method CategoryLines(s: Summary) returns (lines: seq<string>)
    requires s.byCategory.Valid()
    ensures var names := Sorting.ByName(s.byCategory.keys);
      && |lines| == |names| == |s.byCategory.keys|
      && Sorting.NamesStrictlyAscending(names)
      && (forall c :: c in names <==> c in s.byCategory.values)
      && forall i :: 0 <= i < |lines| ==>
           names[i] in s.byCategory.values && lines[i] == CategoryLine(names[i], s.byCategory.values[names[i]])
  {
    SortedCategoryNames(s.byCategory);
    lines := AppendCategoryLines(Sorting.ByName(s.byCategory.keys), s.byCategory.values);
  }
}

=== FILE: ledger.dfy ===
/**
 * Grouping amounts by category, the reduction every script performs with a
 * dict: `d[categoria] += monto` (defaultdict) or `d[cat] = d.get(cat, 0) + monto`.
 * A Python dict is modelled as its keys in insertion order plus the key-to-value map.
 */
module Ledger {
  import opened Stats

  /** The two fields a grouping reads from a record: its category and its amount. */
  datatype Item = Item(category: string, amount: int)

  /** A Python dict with string keys: `keys` in insertion order, `values` the mapping. */
  datatype Dict<V> = Dict(keys: seq<string>, values: map<string, V>)
  {
    /** The keys are distinct and are exactly the map's domain. */
    ghost predicate Valid()
    {
      Distinct(keys) && forall k :: k in values <==> k in keys
    }

    /** dict.items(), in insertion order. */
    function Items(): (r: seq<(string, V)>)
      requires forall k :: k in keys ==> k in values
      ensures |r| == |keys|
      ensures forall i :: 0 <= i < |r| ==> r[i] == (keys[i], values[keys[i]])
    {
      seq(|keys|, i requires 0 <= i < |keys| => (keys[i], values[keys[i]]))
    }
  }

  ghost predicate Distinct<T>(s: seq<T>)
  {
    forall i, j :: 0 <= i < j < |s| ==> s[i] != s[j]
  }

  /** Grand total: the sum of all amounts. */
  function Total(xs: seq<Item>): int
  {
    if xs == [] then 0 else Total(xs[..|xs| - 1]) + xs[|xs| - 1].amount
  }

  /** The amounts booked under category c, in input order. */
  function Amounts(xs: seq<Item>, c: string): seq<int>
  {
    if xs == [] then []
    else Amounts(xs[..|xs| - 1], c) + (if xs[|xs| - 1].category == c then [xs[|xs| - 1].amount] else [])
  }

  /** The subtotal of category c. */
  function CategoryTotal(xs: seq<Item>, c: string): int
  {
    Sum(Amounts(xs, c))
  }

  /** The categories in order of first appearance: the key order of the grouping dict. */
  function Categories(xs: seq<Item>): seq<string>
  {
    if xs == [] then []
    else
      var p := Categories(xs[..|xs| - 1]);
      var c := xs[|xs| - 1].category;
      if c in p then p else p + [c]
  }

  /** The grouping dict's mapping, built one record at a time from a default of 0. */
  function Totals(xs: seq<Item>): map<string, int>
  {
    if xs == [] then map[]
    else
      var m := Totals(xs[..|xs| - 1]);
      var x := xs[|xs| - 1];
      m[x.category := (if x.category in m then m[x.category] else 0) + x.amount]
  }

  /** The grouping dict as a whole. */
  function Grouped(xs: seq<Item>): Dict<int>
  {
    Dict(Categories(xs), Totals(xs))
  }

  /** sum(d.values()) over the keys ks of a dict whose mapping is m. */
  function SumOver(ks: seq<string>, m: map<string, int>): int
    requires forall k :: k in ks ==> k in m
  {
    if ks == [] then 0 else SumOver(ks[..|ks| - 1], m) + m[ks[|ks| - 1]]
  }

  /**
   * The grouping loop (`for item in gastos: categorias[item["categoria"]] += item["monto"]`).
   * A key is inserted with 0 the first time its category is met, so the key order
   * is the order of first appearance.
   */
  method GroupTotals(xs: seq<Item>) returns (d: Dict<int>)
    ensures d == Grouped(xs)
    ensures d.Valid()
    ensures forall c :: c in d.values <==> exists i :: 0 <= i < |xs| && xs[i].category == c
    ensures forall c :: c in d.values ==> d.values[c] == CategoryTotal(xs, c) && |Amounts(xs, c)| >= 1
    ensures SumOver(d.keys, d.values) == Total(xs)
  {
    var keys: seq<string> := [];
    var totals: map<string, int> := map[];
    var i := 0;
    while i < |xs|
      invariant 0 <= i <= |xs|
      invariant keys == Categories(xs[..i]) && totals == Totals(xs[..i])
      invariant forall k :: k in totals <==> k in keys
    {
      var c := xs[i].category;
      assert xs[..i + 1][..i] == xs[..i];
      assert Categories(xs[..i + 1]) == if c in keys then keys else keys + [c];
      assert Totals(xs[..i + 1]) == totals[c := (if c in totals then totals[c] else 0) + xs[i].amount];
      if c !in totals {
        keys := keys + [c];
        totals := totals[c := 0];
      }
      totals := totals[c := totals[c] + xs[i].amount];
      i := i + 1;
    }
    assert xs[..i] == xs;
    d := Dict(keys, totals);
    GroupedSpec(xs);
    TotalsSumToTotal(xs);
  }

  /** What the grouping dict holds: its keys are exactly the occurring categories, each once, each mapped to its subtotal. */
  lemma GroupedSpec(xs: seq<Item>)
    ensures Grouped(xs).Valid()
    ensures forall c :: c in Totals(xs) <==> exists i :: 0 <= i < |xs| && xs[i].category == c
    ensures forall c :: c in Totals(xs) ==> Totals(xs)[c] == CategoryTotal(xs, c) && |Amounts(xs, c)| >= 1
    ensures forall c :: c !in Totals(xs) ==> Amounts(xs, c) == []
  {
    CategoriesSpec(xs);
    TotalsSpec(xs);
  }

  /** The keys are distinct, are the map's domain, and are exactly the categories that occur. */
  lemma {:induction false} CategoriesSpec(xs: seq<Item>)
    ensures Distinct(Categories(xs))
    ensures forall c :: c in Totals(xs) <==> c in Categories(xs)
    ensures forall c :: c in Totals(xs) <==> exists i :: 0 <= i < |xs| && xs[i].category == c
  {
    if xs != [] {
      var p := xs[..|xs| - 1];
      var x := xs[|xs| - 1];
      CategoriesSpec(p);
      forall c
        ensures c in Totals(xs) <==> exists i :: 0 <= i < |xs| && xs[i].category == c
      {
        if c in Totals(xs) && c != x.category {
          assert c in Totals(p);
          var i :| 0 <= i < |p| && p[i].category == c;
          assert xs[i] == p[i];
        }
        if c == x.category {
          assert xs[|xs| - 1].category == c;
        }
        if exists i :: 0 <= i < |xs| && xs[i].category == c {
          var i :| 0 <= i < |xs| && xs[i].category == c;
          if i < |p| { assert p[i] == xs[i]; }
        }
      }
    }
  }

  /** Every key maps to the sum of the amounts of its category, which has at least one amount; other categories have none. */
  lemma {:induction false} TotalsSpec(xs: seq<Item>)
    ensures forall c :: c in Totals(xs) ==> Totals(xs)[c] == CategoryTotal(xs, c) && |Amounts(xs, c)| >= 1
    ensures forall c :: c !in Totals(xs) ==> Amounts(xs, c) == []
  {
    if xs != [] {
      var p := xs[..|xs| - 1];
      var x := xs[|xs| - 1];
      TotalsSpec(p);
      forall c | c in Totals(xs)
        ensures Totals(xs)[c] == CategoryTotal(xs, c) && |Amounts(xs, c)| >= 1
      {
        var a := Amounts(p, c);
        if c == x.category {
          assert Amounts(xs, c) == a + [x.amount];
          assert (a + [x.amount])[..|a|] == a;
          assert Sum(a + [x.amount]) == Sum(a) + x.amount;
        } else {
          assert Amounts(xs, c) == a + [];
          assert a + [] == a;
        }
      }
      forall c | c !in Totals(xs)
        ensures Amounts(xs, c) == []
      {
        assert Amounts(xs, c) == Amounts(p, c) + [];
      }
    }
  }

  /** Categories(xs[..n]) is a prefix of Categories(xs): a key keeps the place it got when its category first appeared. */
  lemma {:induction false} CategoriesInFirstAppearanceOrder(xs: seq<Item>, n: nat)
    requires n <= |xs|
    ensures Categories(xs[..n]) <= Categories(xs)
  {
    if n < |xs| {
      var p := xs[..|xs| - 1];
      assert p[..n] == xs[..n];
      CategoriesInFirstAppearanceOrder(p, n);
    } else {
      assert xs[..n] == xs;
    }
  }

  lemma {:induction false} SumOverUnaffected(ks: seq<string>, m: map<string, int>, c: string, v: int)
    requires forall k :: k in ks ==> k in m
    requires c !in ks
    ensures SumOver(ks, m[c := v]) == SumOver(ks, m)
  {
    if ks != [] {
      SumOverUnaffected(ks[..|ks| - 1], m, c, v);
    }
  }

  lemma {:induction false} SumOverAdd(ks: seq<string>, m: map<string, int>, c: string, a: int)
    requires forall k :: k in ks ==> k in m
    requires Distinct(ks) && c in ks
    ensures SumOver(ks, m[c := m[c] + a]) == SumOver(ks, m) + a
  {
    var p := ks[..|ks| - 1];
    if ks[|ks| - 1] == c {
      assert c !in p;
      SumOverUnaffected(p, m, c, m[c] + a);
    } else {
      assert c in p;
      SumOverAdd(p, m, c, a);
    }
  }

  /** Booking one more amount a under c adds a to the sum over the (possibly extended) keys. */
  lemma SumOverBook(ks: seq<string>, m: map<string, int>, c: string, a: int)
    requires forall k :: k in ks ==> k in m
    requires Distinct(ks) && (c in ks <==> c in m)
    ensures var ks', m' := (if c in ks then ks else ks + [c]), m[c := (if c in m then m[c] else 0) + a];
      (forall k :: k in ks' ==> k in m') && SumOver(ks', m') == SumOver(ks, m) + a
  {
    if c in ks {
      SumOverAdd(ks, m, c, a);
    } else {
      SumOverUnaffected(ks, m, c, a);
      assert (ks + [c])[..|ks|] == ks;
    }
  }

  /** With non-negative values, a sum over keys is non-negative. */
  lemma {:induction false} SumOverNonNegative(ks: seq<string>, m: map<string, int>)
    requires forall k :: k in ks ==> k in m && m[k] >= 0
    ensures SumOver(ks, m) >= 0
  {
    if ks != [] {
      SumOverNonNegative(ks[..|ks| - 1], m);
    }
  }

  /** With non-negative values, each value summed lies between 0 and the sum. */
  lemma {:induction false} SumOverBounds(ks: seq<string>, m: map<string, int>, c: string)
    requires forall k :: k in ks ==> k in m && m[k] >= 0
    requires c in ks
    ensures 0 <= m[c] <= SumOver(ks, m)
  {
    var p := ks[..|ks| - 1];
    SumOverNonNegative(p, m);
    if ks[|ks| - 1] != c {
      assert c in p;
      SumOverBounds(p, m, c);
    }
  }

  /** Non-negative amounts give non-negative category subtotals. */
  lemma {:induction false} TotalsNonNegative(xs: seq<Item>)
    requires forall i :: 0 <= i < |xs| ==> xs[i].amount >= 0
    ensures forall c :: c in Totals(xs) ==> Totals(xs)[c] >= 0
  {
    if xs != [] {
      TotalsNonNegative(xs[..|xs| - 1]);
    }
  }

  /** The category subtotals add up to the grand total. */
  lemma {:induction false} TotalsSumToTotal(xs: seq<Item>)
    ensures forall k :: k in Categories(xs) ==> k in Totals(xs)
    ensures SumOver(Categories(xs), Totals(xs)) == Total(xs)
  {
    if xs != [] {
      var p := xs[..|xs| - 1];
      var x := xs[|xs| - 1];
      TotalsSumToTotal(p);
      var ks, m := Categories(p), Totals(p);
      assert Distinct(ks) && (x.category in ks <==> x.category in m) by { CategoriesSpec(p); }
      assert Categories(xs) == if x.category in ks then ks else ks + [x.category];
      assert Totals(xs) == m[x.category := (if x.category in m then m[x.category] else 0) + x.amount];
      SumOverBook(ks, m, x.category, x.amount);
    }
  }

  /** The lists dict of the `defaultdict(list)` grouping, built one record at a time. */
  function AmountLists(xs: seq<Item>): map<string, seq<int>>
  {
    if xs == [] then map[]
    else
      var m := AmountLists(xs[..|xs| - 1]);
      var x := xs[|xs| - 1];
      m[x.category := (if x.category in m then m[x.category] else []) + [x.amount]]
  }

  /** The lists dict has the same keys as the totals dict, and each key holds the amounts of its category in input order. */
  lemma {:induction false} AmountListsSpec(xs: seq<Item>)
    ensures forall c :: c in AmountLists(xs) <==> c in Totals(xs)
    ensures forall c :: c in AmountLists(xs) ==> AmountLists(xs)[c] == Amounts(xs, c)
  {
    if xs != [] {
      var p := xs[..|xs| - 1];
      AmountListsSpec(p);
      TotalsSpec(p);
      forall c | c in AmountLists(xs)
        ensures AmountLists(xs)[c] == Amounts(xs, c)
      {
        if c == xs[|xs| - 1].category && c !in AmountLists(p) {
          assert Amounts(p, c) == [];
        }
      }
    }
  }

  /** The amounts of each category in a list (`defaultdict(list)` with `append`), keys in first-appearance order. */
  method GroupAmounts(xs: seq<Item>) returns (d: Dict<seq<int>>)
    ensures d.keys == Categories(xs) && d.Valid()
    ensures forall c :: c in d.values ==> d.values[c] == Amounts(xs, c) && |d.values[c]| >= 1
  {
    var keys: seq<string> := [];
    var lists: map<string, seq<int>> := map[];
    var i := 0;
    while i < |xs|
      invariant 0 <= i <= |xs|
      invariant keys == Categories(xs[..i]) && lists == AmountLists(xs[..i])
      invariant forall c :: c in lists <==> c in keys
    {
      var c := xs[i].category;
      assert xs[..i + 1][..i] == xs[..i];
      if c !in lists {
        keys := keys + [c];
        lists := lists[c := []];
      }
      lists := lists[c := lists[c] + [xs[i].amount]];
      i := i + 1;
    }
    assert xs[..i] == xs;
    GroupedSpec(xs);
    AmountListsSpec(xs);
    d := Dict(keys, lists);
  }
}

=== FILE: money.dfy ===
/**
 * The peso formatter `formato_clp`: f"${monto:,.0f}" with ',' replaced by '.'.
 * The value is rounded to a whole number (half to even), written in decimal,
 * its digits grouped in threes from the right and separated by '.', and the
 * result prefixed with '$'; a negative value keeps its '-' after the '$'.
 */
module Money {
  import opened Base

  /** The rounding `format(x, ".0f")` applies to an exact value: nearest integer, ties to the even one. */
  function RoundHalfEven(x: real): (n: int)
    ensures x - 0.5 <= n as real <= x + 0.5
    ensures n as real == x - 0.5 || n as real == x + 0.5 ==> n % 2 == 0
  {
    var f := x.Floor;
    var d := x - f as real;
    if d < 0.5 then f
    else if d > 0.5 then f + 1
    else if f % 2 == 0 then f
    else f + 1
  }

  /** Only one integer is within one half of x and, on a tie, even: RoundHalfEven is that integer. */
  lemma RoundHalfEvenUnique(x: real, n: int)
    requires x - 0.5 <= n as real <= x + 0.5
    requires n as real == x - 0.5 || n as real == x + 0.5 ==> n % 2 == 0
    ensures n == RoundHalfEven(x)
  {
  }

  predicate IsDigit(c: char)
  {
    '0' <= c <= '9'
  }

  function DigitChar(d: int): (c: char)
    requires 0 <= d < 10
    ensures IsDigit(c)
  {
    (48 + d) as char
  }

  function DigitValue(c: char): int
    requires IsDigit(c)
  {
    c as int - 48
  }

  /** The decimal digits of n, most significant first, without leading zeros ("0" for zero). */
  function Digits(n: nat): (r: string)
    ensures |r| >= 1
    ensures forall i :: 0 <= i < |r| ==> IsDigit(r[i])
    ensures r[0] == '0' ==> n == 0
  {
    if n < 10 then [DigitChar(n)] else Digits(n / 10) + [DigitChar(n % 10)]
  }

  /** The number a string of decimal digits denotes. */
  function DigitsValue(ds: string): nat
    requires forall i :: 0 <= i < |ds| ==> IsDigit(ds[i])
  {
    if ds == [] then 0 else 10 * DigitsValue(ds[..|ds| - 1]) + DigitValue(ds[|ds| - 1])
  }

  /** Reading back the written digits gives the number. */
  lemma {:induction false} DigitsRoundTrip(n: nat)
    ensures DigitsValue(Digits(n)) == n
  {
    if n >= 10 {
      DigitsRoundTrip(n / 10);
      var r := Digits(n);
      assert r[..|r| - 1] == Digits(n / 10);
    }
  }

  /** The ',' grouping of `format(n, ",")`, with '.' as the separator: a '.' before every full group of three digits from the right. */
  function GroupThousands(ds: string): (r: string)
    requires forall i :: 0 <= i < |ds| ==> IsDigit(ds[i])
    ensures forall i :: 0 <= i < |r| ==> IsDigit(r[i]) || r[i] == '.'
    ensures |ds| > 0 ==> |r| > 0 && r[0] == ds[0]
  {
    if |ds| <= 3 then ds
    else GroupThousands(ds[..|ds| - 3]) + "." + ds[|ds| - 3..]
  }

  /** A '.' stands exactly at the positions, other than the first, where the character there and those after it number a multiple of four. */
  ghost predicate DotsEveryThreeDigits(r: string)
  {
    forall i :: 0 <= i < |r| ==> (r[i] == '.' <==> i > 0 && (|r| - i) % 4 == 0)
  }

  /** The dots of a grouped number sit between groups of three digits, counted from the right. */
  lemma {:induction false} GroupThousandsShape(ds: string)
    requires forall i :: 0 <= i < |ds| ==> IsDigit(ds[i])
    ensures DotsEveryThreeDigits(GroupThousands(ds))
  {
    if |ds| > 3 {
      var p := ds[..|ds| - 3];
      GroupThousandsShape(p);
      var g := GroupThousands(p);
      var r := GroupThousands(ds);
      assert r == g + "." + ds[|ds| - 3..];
      assert |r| == |g| + 4;
      forall i | 0 <= i < |r|
        ensures r[i] == '.' <==> i > 0 && (|r| - i) % 4 == 0
      {
        if i < |g| {
          assert r[i] == g[i];
          assert (|r| - i) % 4 == (|g| - i) % 4;
        } else if i == |g| {
          assert r[i] == '.' && |r| - i == 4;
        } else {
          assert r[i] == ds[|ds| - 3 + (i - |g| - 1)];
          assert 0 < |r| - i < 4;
          assert r[i] != '.';
          assert (|r| - i) % 4 != 0;
        }
      }
    }
  }

  /** The string with every '.' removed (the inverse of the grouping). */
  function Undot(s: string): string
  {
    if s == [] then [] else (if s[0] == '.' then [] else [s[0]]) + Undot(s[1..])
  }

  lemma {:induction false} UndotAppend(a: string, b: string)
    ensures Undot(a + b) == Undot(a) + Undot(b)
  {
    if a != [] {
      assert (a + b)[1..] == a[1..] + b;
      UndotAppend(a[1..], b);
    } else {
      assert a + b == b;
    }
  }

  lemma {:induction false} UndotDigits(ds: string)
    requires forall i :: 0 <= i < |ds| ==> IsDigit(ds[i])
    ensures Undot(ds) == ds
  {
    if ds != [] {
      UndotDigits(ds[1..]);
      assert ds == [ds[0]] + ds[1..];
    }
  }

  lemma UndotJoinGroups(g: string, p: string, l: string)
    requires Undot(g) == p && Undot(l) == l
    ensures Undot(g + "." + l) == p + l
  {
    assert Undot(".") == [] by { assert "."[1..] == []; }
    UndotAppend(g, ".");
    UndotAppend(g + ".", l);
  }

  lemma DigitsSlice(ds: string, a: nat, b: nat)
    requires forall i :: 0 <= i < |ds| ==> IsDigit(ds[i])
    requires a <= b <= |ds|
    ensures forall i :: 0 <= i < b - a ==> IsDigit(ds[a..b][i])
  {
  }

  /** Removing the separators gives back the digits. */
  lemma {:induction false} GroupThousandsUndot(ds: string)
    requires forall i :: 0 <= i < |ds| ==> IsDigit(ds[i])
    ensures Undot(GroupThousands(ds)) == ds
  {
    if |ds| <= 3 {
      UndotDigits(ds);
    } else {
      var p, l := ds[..|ds| - 3], ds[|ds| - 3..];
      DigitsSlice(ds, 0, |ds| - 3);
      DigitsSlice(ds, |ds| - 3, |ds|);
      var g := GroupThousands(p);
      assert Undot(g) == p by { GroupThousandsUndot(p); }
      assert Undot(l) == l by { UndotDigits(l); }
      assert Undot(g + "." + l) == ds by {
        UndotJoinGroups(g, p, l);
        assert p + l == ds;
      }
      assert GroupThousands(ds) == g + "." + l;
    }
  }

  /** `formato_clp(x)` */
  function FormatClp(x: real): string
  {
    var n := RoundHalfEven(x);
    var magnitude: nat := if n < 0 then -n else n;
    "$" + (if n < 0 then "-" else "") + GroupThousands(Digits(magnitude))
  }

  /** Reads digits grouped by '.' back: the number they denote, once the dots are removed. */
  function ParseGrouped(s: string): Option<nat>
  {
    var ds := Undot(s);
    if ds == [] || exists i :: 0 <= i < |ds| && !IsDigit(ds[i]) then None
    else Some(DigitsValue(ds))
  }

  /** Reads a formatted amount back: '$', an optional '-', then digits grouped by '.'. */
  function ParseClp(t: string): Option<int>
  {
    if |t| == 0 || t[0] != '$' then None
    else
      var body := t[1..];
      var negative := |body| > 0 && body[0] == '-';
      match ParseGrouped(if negative then body[1..] else body)
      case None => None
      case Some(v) => Some(if negative then -(v as int) else v)
  }

  /** The digits of m, grouped, read back as m. */
  lemma ParseGroupedDigits(g: string, m: nat)
    requires Undot(g) == Digits(m)
    ensures ParseGrouped(g) == Some(m)
  {
    DigitsRoundTrip(m);
  }

  /** Reading back '$', an optional '-', and grouped digits that denote v gives v with its sign. */
  lemma ParseClpSigned(g: string, v: nat, negative: bool)
    requires ParseGrouped(g) == Some(v) && g != [] && g[0] != '-'
    ensures ParseClp("$" + (if negative then "-" else "") + g) == Some(if negative then -(v as int) else v)
  {
    var body := (if negative then "-" else "") + g;
    assert ("$" + (if negative then "-" else "") + g)[1..] == body;
    if negative {
      assert body[0] == '-' && body[1..] == g;
    } else {
      assert body == g;
    }
  }

  /** Stripping '$' and the dots gives back the decimal digits, with sign, of the rounded value. */
  lemma FormatClpRoundTrip(x: real)
    ensures ParseClp(FormatClp(x)) == Some(RoundHalfEven(x))
  {
    var n := RoundHalfEven(x);
    var magnitude: nat := if n < 0 then -n else n;
    var ds := Digits(magnitude);
    var g := GroupThousands(ds);
    GroupThousandsUndot(ds);
    ParseGroupedDigits(g, magnitude);
    ParseClpSigned(g, magnitude, n < 0);
  }

  /** The example of the docstring: 12345.6 is written "$12.346". */
  lemma FormatClpExample()
    ensures FormatClp(12345.6) == "$12.346"
  {
    assert RoundHalfEven(12345.6) == 12346;
    assert Digits(12346) == "12346" by {
      assert Digits(1) == "1";
      assert Digits(12) == "12";
      assert Digits(123) == "123";
      assert Digits(1234) == "1234";
    }
    assert GroupThousands("12346") == "12.346" by {
      assert "12346"[..2] == "12";
      assert "12346"[2..] == "346";
    }
  }
}

=== FILE: practice.dfy ===
/** The variables-and-functions practice script (01_basics/practica_bloque1.py). */
module Practice {
  import Basics

  /** `calcular_ahorro(ingreso, gasto_total)`: what is left of the income after the spend. */
  function Savings(income: int, spend: int): (r: int)
    ensures r + spend == income
  {
    income - spend
  }

  /** The script computes its savings twice, directly and through the function; both give 230000. */
  lemma ScriptSavingsAgree()
    ensures var income, food, transport := 300000, 50000, 20000;
      income - (food + transport) == Savings(income, food + transport) == 230000
  {
  }

  /** The script's own `porcentaje_gasto` has the same body as the exercise's; a spend within the income is between 0 and 100 percent of it. */
  lemma SpendPercentWithinRange(spend: real, income: real)
    requires 0.0 <= spend <= income && income != 0.0
    ensures 0.0 <= Basics.SpendPercent(spend, income) <= 100.0
  {
  }
}

=== FILE: sorting.dfy ===
/**
 * The two uses of Python's `sorted` in the scripts: dict keys in ascending
 * name order (str comparison, code point by code point), and (key, subtotal)
 * pairs by descending subtotal with `reverse=True`, which Python keeps stable.
 * Both are pure expressions in the source, so both are functions here
 * (insertion sorts), specified by order, permutation and stability.
 */
module Sorting {
  import opened Ledger

  /** Python's `a < b` on str: lexicographic by code point, a proper prefix first. */
  predicate Below(a: string, b: string)
  {
    if a == [] then b != []
    else if b == [] then false
    else if a[0] != b[0] then a[0] < b[0]
    else Below(a[1..], b[1..])
  }

  lemma {:induction false} BelowIrreflexive(a: string)
    ensures !Below(a, a)
  {
    if a != [] { BelowIrreflexive(a[1..]); }
  }

  lemma {:induction false} BelowTotal(a: string, b: string)
    ensures a == b || Below(a, b) || Below(b, a)
  {
    if a != [] && b != [] && a[0] == b[0] {
      BelowTotal(a[1..], b[1..]);
      if a[1..] == b[1..] { assert a == [a[0]] + a[1..] && b == [b[0]] + b[1..]; }
    }
  }

  lemma {:induction false} BelowAsymmetric(a: string, b: string)
    requires Below(a, b)
    ensures !Below(b, a)
  {
    if a != [] && b != [] && a[0] == b[0] { BelowAsymmetric(a[1..], b[1..]); }
  }

  lemma {:induction false} BelowTransitive(a: string, b: string, c: string)
    requires Below(a, b) && Below(b, c)
    ensures Below(a, c)
  {
    if a != [] && b != [] && c != [] && a[0] == b[0] && b[0] == c[0] {
      BelowTransitive(a[1..], b[1..], c[1..]);
    }
  }

  /** No later name is strictly below an earlier one. */
  ghost predicate NamesAscending(s: seq<string>)
  {
    forall i, j :: 0 <= i < j < |s| ==> !Below(s[j], s[i])
  }

  /** Every name is strictly below every later one. */
  ghost predicate NamesStrictlyAscending(s: seq<string>)
  {
    forall i, j :: 0 <= i < j < |s| ==> Below(s[i], s[j])
  }

  function InsertByName(k: string, s: seq<string>): (r: seq<string>)
    requires NamesAscending(s)
    ensures multiset(r) == multiset(s) + multiset{k}
    ensures NamesAscending(r)
    ensures k !in s && NamesStrictlyAscending(s) ==> NamesStrictlyAscending(r)
  {
    if s == [] then [k]
    else if !Below(s[0], k) then
      InsertFirstByName(k, s);
      [k] + s
    else
      var t := InsertByName(k, s[1..]);
      assert multiset(s) == multiset{s[0]} + multiset(s[1..]) by { assert s == [s[0]] + s[1..]; }
      InsertAfterHead(k, s, t);
      [s[0]] + t
  }

  lemma InsertFirstByName(k: string, s: seq<string>)
    requires NamesAscending(s) && s != [] && !Below(s[0], k)
    ensures NamesAscending([k] + s)
    ensures k !in s && NamesStrictlyAscending(s) ==> NamesStrictlyAscending([k] + s)
  {
    var r := [k] + s;
    forall j | 1 < j < |r|
      ensures !Below(r[j], k)
    {
      // s[0] comes no later than r[j] in name order, and s[0] is not below k
      BelowTotal(s[0], r[j]);
      if Below(s[0], r[j]) && Below(r[j], k) { BelowTransitive(s[0], r[j], k); }
    }
    if k !in s && NamesStrictlyAscending(s) {
      BelowTotal(k, s[0]);
      forall j | 0 < j < |r|
        ensures Below(k, r[j])
      {
        if j > 1 { BelowTransitive(k, s[0], r[j]); }
      }
    }
  }

  lemma InsertAfterHead(k: string, s: seq<string>, t: seq<string>)
    requires NamesAscending(s) && s != [] && Below(s[0], k)
    requires multiset(t) == multiset(s[1..]) + multiset{k} && NamesAscending(t)
    requires k !in s && NamesStrictlyAscending(s) ==> NamesStrictlyAscending(t)
    ensures NamesAscending([s[0]] + t)
    ensures k !in s && NamesStrictlyAscending(s) ==> NamesStrictlyAscending([s[0]] + t)
  {
    var r := [s[0]] + t;
    forall j | 0 < j < |r|
      ensures !Below(r[j], s[0]) && (k !in s && NamesStrictlyAscending(s) ==> Below(s[0], r[j]))
    {
      assert r[j] in multiset(t);
      assert r[j] == k || r[j] in s[1..];
      if r[j] == k {
        BelowAsymmetric(s[0], k);
      } else {
        var m :| 0 <= m < |s[1..]| && s[1..][m] == r[j];
        assert s[m + 1] == r[j];
      }
    }
  }

  /** `sorted(keys)`: the keys in ascending name order. */
  function ByName(ks: seq<string>): (r: seq<string>)
    ensures multiset(r) == multiset(ks)
    ensures NamesAscending(r)
    ensures Distinct(ks) ==> NamesStrictlyAscending(r)
  {
    if ks == [] then []
    else
      var t := ByName(ks[1..]);
      assert ks == [ks[0]] + ks[1..];
      assert Distinct(ks) ==> ks[0] !in multiset(ks[1..]);
      InsertByName(ks[0], t)
  }

  /** No later pair carries a greater subtotal than an earlier one. */
  ghost predicate NonIncreasing(s: seq<(string, int)>)
  {
    forall i, j :: 0 <= i < j < |s| ==> s[j].1 <= s[i].1
  }

  /** The pairs whose subtotal is v, in their order in s. */
  function WithValue(s: seq<(string, int)>, v: int): seq<(string, int)>
  {
    if s == [] then [] else (if s[0].1 == v then [s[0]] else []) + WithValue(s[1..], v)
  }

  /** Inserts p before the first pair whose subtotal is not greater than p's. */
  function InsertDesc(p: (string, int), s: seq<(string, int)>): (r: seq<(string, int)>)
    requires NonIncreasing(s)
    ensures multiset(r) == multiset(s) + multiset{p}
    ensures NonIncreasing(r)
  {
    if s == [] then [p]
    else if p.1 >= s[0].1 then [p] + s
    else
      var t := InsertDesc(p, s[1..]);
      assert multiset(s) == multiset{s[0]} + multiset(s[1..]) by { assert s == [s[0]] + s[1..]; }
      InsertDescAfterHead(p, s, t);
      [s[0]] + t
  }

  lemma InsertDescAfterHead(p: (string, int), s: seq<(string, int)>, t: seq<(string, int)>)
    requires NonIncreasing(s) && s != [] && p.1 < s[0].1
    requires multiset(t) == multiset(s[1..]) + multiset{p} && NonIncreasing(t)
    ensures NonIncreasing([s[0]] + t)
  {
    var r := [s[0]] + t;
    forall j | 0 < j < |r|
      ensures r[j].1 <= s[0].1
    {
      assert r[j] in multiset(t);
      if r[j] != p {
        assert r[j] in s[1..];
        var m :| 0 <= m < |s[1..]| && s[1..][m] == r[j];
        assert s[m + 1] == r[j];
      }
    }
  }

  /** `sorted(items, key=lambda x: x[1], reverse=True)`: by descending subtotal, ties in their original order. */
  function RankDesc(ps: seq<(string, int)>): (r: seq<(string, int)>)
    ensures multiset(r) == multiset(ps)
    ensures NonIncreasing(r)
  {
    if ps == [] then []
    else
      assert ps == [ps[0]] + ps[1..];
      InsertDesc(ps[0], RankDesc(ps[1..]))
  }

  lemma WithValueCons(q: (string, int), s: seq<(string, int)>, v: int)
    ensures WithValue([q] + s, v) == (if q.1 == v then [q] else []) + WithValue(s, v)
  {
    assert ([q] + s)[0] == q;
    assert ([q] + s)[1..] == s;
  }

  /** The pairs with subtotal v in a prefix of s are a prefix of those in s. */
  lemma {:induction false} WithValuePrefix(s: seq<(string, int)>, n: nat, v: int)
    requires n <= |s|
    ensures WithValue(s[..n], v) <= WithValue(s, v)
  {
    if n > 0 {
      var rest := s[1..];
      WithValuePrefix(rest, n - 1, v);
      assert s[..n] == [s[0]] + rest[..n - 1];
      assert s == [s[0]] + rest;
      WithValueCons(s[0], rest[..n - 1], v);
      WithValueCons(s[0], rest, v);
    }
  }

  /** Placing a pair with a greater subtotal in front keeps the pairs with subtotal v in order. */
  lemma WithValueAfterHead(p: (string, int), q: (string, int), rest: seq<(string, int)>, t: seq<(string, int)>, v: int)
    requires p.1 < q.1
    requires WithValue(t, v) == (if p.1 == v then [p] else []) + WithValue(rest, v)
    ensures WithValue([q] + t, v) == (if p.1 == v then [p] else []) + WithValue([q] + rest, v)
  {
    WithValueCons(q, t, v);
    WithValueCons(q, rest, v);
  }

  lemma {:induction false} InsertDescWithValue(p: (string, int), s: seq<(string, int)>, v: int)
    requires NonIncreasing(s)
    ensures WithValue(InsertDesc(p, s), v) == (if p.1 == v then [p] else []) + WithValue(s, v)
  {
    if s == [] {
      WithValueCons(p, [], v);
    } else if p.1 >= s[0].1 {
      WithValueCons(p, s, v);
    } else {
      var q, rest := s[0], s[1..];
      assert NonIncreasing(rest);
      var t := InsertDesc(p, rest);
      InsertDescWithValue(p, rest, v);
      WithValueAfterHead(p, q, rest, t, v);
      assert s == [q] + rest;
    }
  }

  /** Stability: for every subtotal, the pairs carrying it appear in the ranking in their original order. */
  lemma {:induction false} RankDescStable(ps: seq<(string, int)>, v: int)
    ensures WithValue(RankDesc(ps), v) == WithValue(ps, v)
  {
    if ps != [] {
      RankDescStable(ps[1..], v);
      InsertDescWithValue(ps[0], RankDesc(ps[1..]), v);
    }
  }
}

=== FILE: stats.dfy ===
/**
 * Python's built-in reductions over a list of integers: sum, min, max and the
 * element `max(..., key=...)` returns. Each folds the list from the left, as
 * the built-ins do, so every definition peels off the LAST element.
 */
module Stats {

  /** sum(s) */
  function Sum(s: seq<int>): int
  {
    if s == [] then 0 else Sum(s[..|s| - 1]) + s[|s| - 1]
  }

  /** min(s); Python raises ValueError on an empty list, hence the requires. */
  function MinOf(s: seq<int>): (m: int)
    requires |s| > 0
    ensures m in s
    ensures forall x :: x in s ==> m <= x
  {
    if |s| == 1 then s[0]
    else
      var p := MinOf(s[..|s| - 1]);
      assert forall x :: x in s ==> x in s[..|s| - 1] || x == s[|s| - 1];
      if s[|s| - 1] < p then s[|s| - 1] else p
  }

  /** max(s) */
  function MaxOf(s: seq<int>): (m: int)
    requires |s| > 0
    ensures m in s
    ensures forall x :: x in s ==> x <= m
  {
    if |s| == 1 then s[0]
    else
      var p := MaxOf(s[..|s| - 1]);
      assert forall x :: x in s ==> x in s[..|s| - 1] || x == s[|s| - 1];
      if s[|s| - 1] > p then s[|s| - 1] else p
  }

  /**
   * The position of the element `max(xs, key=k)` returns when s[i] is k(xs[i]):
   * the scan replaces its candidate only on a strictly greater key, so the
   * result is the FIRST position holding the maximum.
   */
  function FirstMaxIndex(s: seq<int>): (k: nat)
    requires |s| > 0
    ensures k < |s|
    ensures forall j :: 0 <= j < |s| ==> s[j] <= s[k]
    ensures forall j :: 0 <= j < k ==> s[j] < s[k]
  {
    if |s| == 1 then 0
    else
      var p := FirstMaxIndex(s[..|s| - 1]);
      if s[|s| - 1] > s[p] then |s| - 1 else p
  }

  /** The key of every element, in order. */
  function KeysBy<T>(xs: seq<T>, key: T -> int): (ks: seq<int>)
    ensures |ks| == |xs|
    ensures forall i :: 0 <= i < |xs| ==> ks[i] == key(xs[i])
  {
    seq(|xs|, i requires 0 <= i < |xs| => key(xs[i]))
  }

  /** `x` has the greatest key in xs, and no earlier element reaches it: what `max(xs, key=key)` returns. */
  ghost predicate IsFirstMaxBy<T>(xs: seq<T>, key: T -> int, x: T)
  {
    && (forall y :: y in xs ==> key(y) <= key(x))
    && exists i :: 0 <= i < |xs| && xs[i] == x
                   && forall j :: 0 <= j < i ==> key(xs[j]) < key(x)
  }

  /** Picking the element at the first maximum of the keys is `max` with a key function. */
  lemma FirstMaxBy<T>(xs: seq<T>, key: T -> int)
    requires xs != []
    ensures IsFirstMaxBy(xs, key, xs[FirstMaxIndex(KeysBy(xs, key))])
  {
    var ks := KeysBy(xs, key);
    var b := FirstMaxIndex(ks);
    forall y | y in xs
      ensures key(y) <= key(xs[b])
    {
      var i :| 0 <= i < |xs| && xs[i] == y;
      assert ks[i] == key(y);
    }
    assert forall j :: 0 <= j < b ==> key(xs[j]) == ks[j];
  }

  /** A list whose elements are all at least b sums to at least its length times b; likewise for an upper bound. */
  lemma {:induction false} SumBounds(s: seq<int>, lo: int, hi: int)
    requires forall x :: x in s ==> lo <= x <= hi
    ensures |s| * lo <= Sum(s) <= |s| * hi
  {
    if s != [] {
      var p := s[..|s| - 1];
      assert forall x :: x in p ==> x in s;
      assert s[|s| - 1] in s;
      SumBounds(p, lo, hi);
      MulSucc(|p|, lo);
      MulSucc(|p|, hi);
    }
  }

  lemma MulSucc(n: nat, m: int)
    ensures (n + 1) * m == n * m + m
  {
  }

  lemma DivideBothSides(a: real, b: real, n: real)
    requires n > 0.0 && a * n <= b * n
    ensures a <= b
  {
  }

  lemma CancelFactor(a: real, b: real, n: real)
    requires n > 0.0 && a * n == b * n
    ensures a == b
  {
  }

  lemma MulAsReal(a: int, b: int)
    ensures (a * b) as real == a as real * b as real
  {
  }

  /** Dividing by a positive count and multiplying back gives the total again. */
  lemma QuotientTimes(total: int, n: int)
    requires n > 0
    ensures (total as real / n as real) * n as real == total as real
  {
  }

  /** `total / n` in true division: the share of each of n parts, which n times over gives back the total. */
  function Ratio(total: int, n: int): (a: real)
    requires n > 0
    ensures a * n as real == total as real
  {
    QuotientTimes(total, n);
    total as real / n as real
  }

  /** With n > 0 and n * lo <= total <= n * hi, the quotient total / n lies in [lo, hi]. */
  lemma QuotientBetween(total: int, n: int, lo: int, hi: int)
    requires n > 0 && n * lo <= total <= n * hi
    ensures lo as real <= Ratio(total, n) <= hi as real
  {
    var q := Ratio(total, n);
    MulAsReal(n, lo);
    MulAsReal(n, hi);
    DivideBothSides(lo as real, q, n as real);
    DivideBothSides(q, hi as real, n as real);
  }

  /** The arithmetic mean `sum(s) / len(s)` of a non-empty sequence: it times the count gives the sum. */
  function Mean(s: seq<int>): (m: real)
    requires |s| > 0
    ensures m * |s| as real == Sum(s) as real
  {
    Ratio(Sum(s), |s|)
  }

  /** The arithmetic mean of a non-empty list lies between its minimum and its maximum. */
  lemma MeanBetweenExtremes(s: seq<int>)
    requires |s| > 0
    ensures MinOf(s) as real <= Mean(s) <= MaxOf(s) as real
  {
    SumBounds(s, MinOf(s), MaxOf(s));
    QuotientBetween(Sum(s), |s|, MinOf(s), MaxOf(s));
  }
}

=== FILE: text.dfy ===
/**
 * The Python str methods the filename cleaner chains: strip(), split() with no
 * argument (runs of whitespace separate words), " ".join(...) and title().
 */
module Text {

  /** str.isspace() for one character. */
  predicate IsSpace(c: char)
  {
    var n := c as int;
    n == 32 || 9 <= n <= 13 || 28 <= n <= 31 || n == 0x85 || n == 0xA0 || n == 0x1680
    || 0x2000 <= n <= 0x200A || n == 0x2028 || n == 0x2029 || n == 0x202F || n == 0x205F || n == 0x3000
  }

  /**
   * Characters with the Unicode Uppercase property among Basic Latin and Latin-1
   * (U+00C0 to U+00DE without the multiplication sign), plus the upper-case
   * letters the Latin-1 lower-case ones map to outside it: Y with diaeresis
   * (U+0178) and Greek capital mu (U+039C).
   */
  predicate IsUpper(c: char)
  {
    var n := c as int;
    'A' <= c <= 'Z' || (0xC0 <= n <= 0xDE && n != 0xD7) || n == 0x178 || n == 0x39C
  }

  /**
   * Characters with the Unicode Lowercase property among Basic Latin and Latin-1:
   * a to z, the ordinal indicators U+00AA and U+00BA, the micro sign U+00B5 and
   * U+00DF to U+00FF without the division sign; plus Greek small mu (U+03BC),
   * the lower case of U+039C.
   */
  predicate IsLower(c: char)
  {
    var n := c as int;
    'a' <= c <= 'z' || n == 0xAA || n == 0xB5 || n == 0xBA || (0xDF <= n <= 0xFF && n != 0xF7) || n == 0x3BC
  }

  /** Python's notion of a cased character, which title() tests on the previous character. */
  predicate IsCased(c: char)
  {
    IsUpper(c) || IsLower(c)
  }

  /** A lower-case letter with a single-character upper case: all but the ordinal indicators and sharp s. */
  predicate HasSimpleUpper(c: char)
  {
    IsLower(c) && c as int != 0xAA && c as int != 0xBA && c as int != 0xDF
  }

  /**
   * Simple upper-casing. The ordinal indicators and sharp s have no single-character
   * upper case and are kept.
   */
  function Upper(c: char): (u: char)
    ensures IsCased(u) == IsCased(c) && IsSpace(u) == IsSpace(c)
    ensures !IsCased(c) ==> u == c
    ensures IsCased(c) ==> !IsLower(u) || u == c
    ensures HasSimpleUpper(c) ==> IsUpper(u)
  {
    var n := c as int;
    if 'a' <= c <= 'z' || (0xE0 <= n <= 0xFE && n != 0xF7) then (n - 32) as char
    else if n == 0xFF then '\U{0178}'
    else if n == 0xB5 || n == 0x3BC then '\U{039C}'
    else c
  }

  /** Simple lower-casing. */
  function Lower(c: char): (l: char)
    ensures IsCased(l) == IsCased(c) && IsSpace(l) == IsSpace(c)
    ensures !IsCased(c) ==> l == c
    ensures IsCased(c) ==> IsLower(l)
  {
    var n := c as int;
    if 'A' <= c <= 'Z' || (0xC0 <= n <= 0xDE && n != 0xD7) then (n + 32) as char
    else if n == 0x178 then '\U{00FF}'
    else if n == 0x39C then '\U{03BC}'
    else c
  }

  /** A non-empty run of non-whitespace characters. */
  ghost predicate IsWord(w: string)
  {
    |w| > 0 && forall i :: 0 <= i < |w| ==> !IsSpace(w[i])
  }

  /** Every element is a word (stated element by element, from the front). */
  ghost predicate AllWords(ws: seq<string>)
  {
    ws == [] || (IsWord(ws[0]) && AllWords(ws[1..]))
  }

  /** The input with its leading whitespace removed. */
  function DropSpaces(s: string): (r: string)
    ensures |r| <= |s| && r == s[|s| - |r|..]
    ensures r != [] ==> !IsSpace(r[0])
  {
    if s != [] && IsSpace(s[0]) then DropSpaces(s[1..]) else s
  }

  /** Nothing is left exactly when the input is all whitespace. */
  lemma {:induction false} DropSpacesEmpty(s: string)
    ensures DropSpaces(s) == [] <==> forall i :: 0 <= i < |s| ==> IsSpace(s[i])
  {
    if s != [] && IsSpace(s[0]) {
      DropSpacesEmpty(s[1..]);
      forall i | 0 < i < |s|
        ensures s[i] == s[1..][i - 1]
      {
      }
    }
  }

  /** Everything DropSpaces removes is whitespace. */
  lemma {:induction false} DropSpacesDropsSpaces(s: string)
    ensures forall i :: 0 <= i < |s| - |DropSpaces(s)| ==> IsSpace(s[i])
  {
    if s != [] && IsSpace(s[0]) {
      DropSpacesDropsSpaces(s[1..]);
      forall i | 0 < i < |s| - |DropSpaces(s)|
        ensures IsSpace(s[i])
      {
        assert s[i] == s[1..][i - 1];
      }
    }
  }

  /** The input with its trailing whitespace removed. */
  function DropSpacesEnd(s: string): (r: string)
    ensures |r| <= |s| && r == s[..|r|]
    ensures forall i :: |r| <= i < |s| ==> IsSpace(s[i])
  {
    if s != [] && IsSpace(s[|s| - 1]) then DropSpacesEnd(s[..|s| - 1]) else s
  }

  /** What DropSpacesEnd keeps is empty or ends in a non-whitespace character. */
  lemma {:induction false} DropSpacesEndLast(s: string)
    ensures DropSpacesEnd(s) != [] ==> !IsSpace(DropSpacesEnd(s)[|DropSpacesEnd(s)| - 1])
  {
    if s != [] && IsSpace(s[|s| - 1]) {
      DropSpacesEndLast(s[..|s| - 1]);
    }
  }

  /** str.strip() */
  function Strip(s: string): string
  {
    DropSpacesEnd(DropSpaces(s))
  }

  /** The longest whitespace-free prefix. */
  function WordAt(s: string): (w: string)
    ensures |w| <= |s| && w == s[..|w|]
    ensures |w| < |s| ==> IsSpace(s[|w|])
  {
    if s == [] || IsSpace(s[0]) then [] else [s[0]] + WordAt(s[1..])
  }

  /** The prefix WordAt takes holds no whitespace. */
  lemma {:induction false} WordAtNoSpace(s: string)
    ensures forall i :: 0 <= i < |WordAt(s)| ==> !IsSpace(WordAt(s)[i])
  {
    if s != [] && !IsSpace(s[0]) {
      WordAtNoSpace(s[1..]);
      var w := WordAt(s[1..]);
      assert WordAt(s) == [s[0]] + w;
      forall i | 0 < i < |WordAt(s)|
        ensures WordAt(s)[i] == w[i - 1]
      {
      }
    }
  }

  /** str.split() with no separator: the maximal whitespace-free runs, in order. */
  function Words(s: string): seq<string>
    decreases |s|
  {
    var t := DropSpaces(s);
    if t == [] then []
    else
      var w := WordAt(t);
      [w] + Words(t[|w|..])
  }

  /** Every piece split() returns is a non-empty run of non-whitespace characters. */
  lemma {:induction false} WordsAreWords(s: string)
    ensures AllWords(Words(s))
    decreases |s|
  {
    var t := DropSpaces(s);
    if t != [] {
      var w := WordAt(t);
      WordAtNoSpace(t);
      WordsAreWords(t[|w|..]);
      assert Words(s)[1..] == Words(t[|w|..]);
    }
  }

  /** " ".join(ws) */
  function Join(ws: seq<string>): string
  {
    if ws == [] then ""
    else if |ws| == 1 then ws[0]
    else ws[0] + " " + Join(ws[1..])
  }

  /**
   * str.title(): each character is lower-cased when the character before it is
   * cased and title-cased (here: upper-cased) otherwise.
   */
  function TitleFrom(s: string, afterCased: bool): (r: string)
    ensures |r| == |s|
    ensures forall i :: 0 <= i < |s| ==> IsSpace(r[i]) == IsSpace(s[i]) && IsCased(r[i]) == IsCased(s[i])
  {
    if s == [] then []
    else [if afterCased then Lower(s[0]) else Upper(s[0])] + TitleFrom(s[1..], IsCased(s[0]))
  }

  function Title(s: string): string
  {
    TitleFrom(s, false)
  }

  /** Title applied to each word. */
  function TitleWords(ws: seq<string>): (r: seq<string>)
    ensures |r| == |ws|
    ensures forall k :: 0 <= k < |ws| ==> r[k] == Title(ws[k])
  {
    if ws == [] then [] else [Title(ws[0])] + TitleWords(ws[1..])
  }

  // ---------------------------------------------------------------------------
  // split and strip
  // ---------------------------------------------------------------------------

  lemma DropSpacesIdempotent(s: string)
    ensures DropSpaces(DropSpaces(s)) == DropSpaces(s)
  {
  }

  /** Leading whitespace never changes the words. */
  lemma WordsAfterDropSpaces(s: string)
    ensures Words(DropSpaces(s)) == Words(s)
  {
    DropSpacesIdempotent(s);
  }

  lemma {:induction false} WordAtAppendSpace(t: string, c: char)
    requires IsSpace(c)
    ensures WordAt(t + [c]) == WordAt(t)
  {
    if t != [] && !IsSpace(t[0]) {
      assert (t + [c])[1..] == t[1..] + [c];
      WordAtAppendSpace(t[1..], c);
    } else if t == [] {
      assert t + [c] == [c];
    }
  }

  lemma {:induction false} DropSpacesAppendSpace(t: string, c: char)
    requires IsSpace(c)
    ensures DropSpaces(t + [c]) == if DropSpaces(t) == [] then [] else DropSpaces(t) + [c]
  {
    var u := t + [c];
    if t == [] {
      assert u == [c] && u[1..] == [];
      assert DropSpaces(u) == DropSpaces([]);
    } else if IsSpace(t[0]) {
      assert u[0] == t[0] && u[1..] == t[1..] + [c];
      DropSpacesAppendSpace(t[1..], c);
      assert DropSpaces(u) == DropSpaces(t[1..] + [c]);
      assert DropSpaces(t) == DropSpaces(t[1..]);
    } else {
      assert u[0] == t[0];
      assert DropSpaces(u) == u && DropSpaces(t) == t;
    }
  }

  /** One step of split(): the first word, then the words of what follows it. */
  lemma WordsStep(s: string)
    requires DropSpaces(s) != []
    ensures Words(s) == [WordAt(DropSpaces(s))] + Words(DropSpaces(s)[|WordAt(DropSpaces(s))|..])
  {
  }

  /** A trailing whitespace character never changes the words. */
  lemma {:induction false} WordsAppendSpace(u: string, c: char)
    requires IsSpace(c)
    ensures Words(u + [c]) == Words(u)
    decreases |u|
  {
    DropSpacesAppendSpace(u, c);
    var t := DropSpaces(u);
    if t != [] {
      var w := WordAt(t);
      WordAtAppendSpace(t, c);
      var rest := t[|w|..];
      assert (t + [c])[|w|..] == rest + [c];
      WordsAppendSpace(rest, c);
      WordsStep(u + [c]);
      WordsStep(u);
    }
  }

  lemma {:induction false} WordsAfterDropSpacesEnd(s: string)
    ensures Words(DropSpacesEnd(s)) == Words(s)
    decreases |s|
  {
    if s != [] && IsSpace(s[|s| - 1]) {
      var u, c := s[..|s| - 1], s[|s| - 1];
      assert DropSpacesEnd(s) == DropSpacesEnd(u);
      WordsAfterDropSpacesEnd(u);
      assert u + [c] == s;
      WordsAppendSpace(u, c);
    }
  }

  /** strip() before split() changes nothing. */
  lemma WordsAfterStrip(s: string)
    ensures Words(Strip(s)) == Words(s)
  {
    WordsAfterDropSpacesEnd(DropSpaces(s));
    WordsAfterDropSpaces(s);
  }

  /** A string has no words exactly when it is all whitespace. */
  lemma WordsEmpty(s: string)
    ensures Words(s) == [] <==> forall i :: 0 <= i < |s| ==> IsSpace(s[i])
  {
    DropSpacesEmpty(s);
  }

  // ---------------------------------------------------------------------------
  // split undoes join
  // ---------------------------------------------------------------------------

  lemma {:induction false} WordAtOfWord(w: string, rest: string)
    requires IsWord(w)
    requires rest == [] || IsSpace(rest[0])
    ensures WordAt(w + rest) == w
  {
    if |w| == 1 {
      assert (w + rest)[1..] == rest;
    } else {
      assert (w + rest)[1..] == w[1..] + rest;
      WordAtOfWord(w[1..], rest);
      assert w == [w[0]] + w[1..];
    }
  }

  lemma WordsCons(w: string, rest: string)
    requires IsWord(w)
    requires rest == [] || IsSpace(rest[0])
    ensures Words(w + rest) == [w] + Words(rest)
  {
    var s := w + rest;
    assert DropSpaces(s) == s by { assert s[0] == w[0]; }
    WordAtOfWord(w, rest);
    assert s[|w|..] == rest;
  }

  lemma WordsLeadingSpace(c: char, t: string)
    requires IsSpace(c)
    ensures Words([c] + t) == Words(t)
  {
    assert ([c] + t)[1..] == t;
    assert DropSpaces([c] + t) == DropSpaces(t);
  }

  /** Splitting words joined by single spaces gives back the words. */
  lemma {:induction false} WordsOfJoin(ws: seq<string>)
    requires AllWords(ws)
    ensures Words(Join(ws)) == ws
  {
    if ws != [] {
      var w, rest := ws[0], ws[1..];
      assert IsWord(w) && AllWords(rest);
      assert ws == [w] + rest;
      if rest == [] {
        WordsCons(w, []);
        assert w + [] == w;
      } else {
        WordsOfJoin(rest);
        JoinCons(ws);
        WordsOfWordSpace(w, Join(rest));
      }
    }
  }

  lemma JoinCons(ws: seq<string>)
    requires |ws| > 1
    ensures Join(ws) == ws[0] + (" " + Join(ws[1..]))
  {
  }

  lemma WordsOfWordSpace(w: string, j: string)
    requires IsWord(w)
    ensures Words(w + (" " + j)) == [w] + Words(j)
  {
    WordsCons(w, " " + j);
    WordsLeadingSpace(' ', j);
  }

  /** Joined words carry whitespace only as single spaces between two words. */
  lemma {:induction false} JoinShape(ws: seq<string>)
    requires AllWords(ws)
    ensures Join(ws) == [] <==> ws == []
    ensures var r := Join(ws);
      forall i :: 0 <= i < |r| && IsSpace(r[i]) ==>
        r[i] == ' ' && 0 < i < |r| - 1 && !IsSpace(r[i - 1]) && !IsSpace(r[i + 1])
  {
    if |ws| > 1 {
      assert IsWord(ws[0]);
      var j := Join(ws[1..]);
      JoinShape(ws[1..]);
      var r := Join(ws);
      assert r == ws[0] + " " + j;
      forall i | 0 <= i < |r| && IsSpace(r[i])
        ensures r[i] == ' ' && 0 < i < |r| - 1 && !IsSpace(r[i - 1]) && !IsSpace(r[i + 1])
      {
        var n := |ws[0]|;
        if i == n {
          assert r[i - 1] == ws[0][n - 1];
          assert r[i + 1] == j[0];
        } else if i > n + 1 {
          assert r[i] == j[i - n - 1];
          assert r[i - 1] == j[i - n - 2];
        } else {
          // r[i] lies inside the first word or is the first character of j: neither is whitespace
          assert false;
        }
      }
    } else if |ws| == 1 {
      assert IsWord(ws[0]);
    }
  }

  // ---------------------------------------------------------------------------
  // title
  // ---------------------------------------------------------------------------

  /** The case flag after scanning s from flag p. */
  function CasedAfter(s: string, p: bool): bool
  {
    if s == [] then p else CasedAfter(s[1..], IsCased(s[0]))
  }

  lemma {:induction false} TitleFromAppend(a: string, b: string, p: bool)
    ensures TitleFrom(a + b, p) == TitleFrom(a, p) + TitleFrom(b, CasedAfter(a, p))
  {
    if a != [] {
      assert (a + b)[0] == a[0];
      assert (a + b)[1..] == a[1..] + b;
      TitleFromAppend(a[1..], b, IsCased(a[0]));
    } else {
      assert a + b == b;
    }
  }

  /** title() starts afresh after every space, so it works word by word. */
  lemma {:induction false} TitleOfJoin(ws: seq<string>)
    ensures Title(Join(ws)) == Join(TitleWords(ws))
  {
    if |ws| > 1 {
      var w, j := ws[0], Join(ws[1..]);
      TitleFromAppend(w + " ", j, false);
      TitleFromAppend(w, " ", false);
      assert CasedAfter(w + " ", false) == false by {
        CasedAfterAppend(w, " ", false);
      }
      assert TitleFrom(" ", CasedAfter(w, false)) == " ";
      TitleOfJoin(ws[1..]);
      assert TitleWords(ws)[1..] == TitleWords(ws[1..]);
    }
  }

  /**
   * title() character by character: a character right after a cased letter is
   * lower-cased, every other one upper-cased, so each run of letters starts
   * with a capital and continues in lower case.
   */
  lemma TitleCharacters(s: string)
    ensures forall i :: 0 <= i < |s| ==>
              Title(s)[i] == if i > 0 && IsCased(s[i - 1]) then Lower(s[i]) else Upper(s[i])
  {
    TitleFromCharacters(s, false);
    var t := TitleFrom(s, false);
    forall i | 0 <= i < |s|
      ensures Title(s)[i] == if i > 0 && IsCased(s[i - 1]) then Lower(s[i]) else Upper(s[i])
    {
      assert Title(s)[i] == t[i];
    }
  }

  /**
   * The ordinal indicator counts as cased, so the letter after it stays in lower
   * case; y with diaeresis starts a word as its capital U+0178.
   */
  lemma TitleLatin1Example()
    ensures Title("\U{00AA}b") == "\U{00AA}b"
    ensures Title("\U{00FF}a") == "\U{0178}a"
  {
    assert TitleFrom("b", true) == "b";
    assert TitleFrom("a", true) == "a";
    assert TitleFrom("\U{00AA}b", false) == "\U{00AA}b" by { assert "\U{00AA}b"[1..] == "b"; }
    assert TitleFrom("\U{00FF}a", false) == "\U{0178}a" by { assert "\U{00FF}a"[1..] == "a"; }
  }

  /**
   * The two halves of title(): a letter that opens a run of cased characters
   * comes out upper case, and a cased character inside a run comes out lower case.
   */
  lemma TitleCaseOfRuns(s: string, i: nat)
    requires i < |s|
    ensures HasSimpleUpper(s[i]) && (i == 0 || !IsCased(s[i - 1])) ==> IsUpper(Title(s)[i])
    ensures IsCased(s[i]) && i > 0 && IsCased(s[i - 1]) ==> IsLower(Title(s)[i])
  {
    TitleCharacters(s);
  }

  lemma {:induction false} TitleFromCharacters(s: string, p: bool)
    ensures forall i :: 0 <= i < |s| ==>
              TitleFrom(s, p)[i] == if (if i == 0 then p else IsCased(s[i - 1])) then Lower(s[i]) else Upper(s[i])
  {
    if s != [] {
      TitleFromCharacters(s[1..], IsCased(s[0]));
      var r := TitleFrom(s, p);
      forall i | 0 < i < |s|
        ensures r[i] == TitleFrom(s[1..], IsCased(s[0]))[i - 1]
      {
      }
    }
  }

  lemma {:induction false} CasedAfterAppend(a: string, b: string, p: bool)
    ensures CasedAfter(a + b, p) == CasedAfter(b, CasedAfter(a, p))
  {
    if a != [] {
      assert (a + b)[1..] == a[1..] + b;
      CasedAfterAppend(a[1..], b, IsCased(a[0]));
    } else {
      assert a + b == b;
    }
  }

  /** title() of a title-cased string changes nothing. */
  lemma {:induction false} TitleFromIdempotent(s: string, p: bool)
    ensures TitleFrom(TitleFrom(s, p), p) == TitleFrom(s, p)
  {
    if s != [] {
      var r := TitleFrom(s, p);
      TitleFromIdempotent(s[1..], IsCased(s[0]));
      assert r[1..] == TitleFrom(s[1..], IsCased(s[0]));
      assert IsCased(r[0]) == IsCased(s[0]);
    }
  }

  lemma TitleWordsIdempotent(ws: seq<string>)
    ensures TitleWords(TitleWords(ws)) == TitleWords(ws)
  {
    forall k | 0 <= k < |ws|
      ensures Title(Title(ws[k])) == Title(ws[k])
    {
      TitleFromIdempotent(ws[k], false);
    }
  }

  /** Title-casing a word leaves it a word. */
  lemma {:induction false} TitleWordsAreWords(ws: seq<string>)
    requires AllWords(ws)
    ensures AllWords(TitleWords(ws))
  {
    if ws != [] {
      TitleWordsAreWords(ws[1..]);
      var r := TitleWords(ws);
      assert r[1..] == TitleWords(ws[1..]);
      assert IsWord(r[0]);
    }
  }
}
